=== FILE: README.md ===
# Hackathon registration wizard — a Dafny model of `script.js`

`script.js` drives a five-step registration form in the browser. It covers personal details,
academic details, participation (solo or a team with a generated roster), documents, and a
confirmation step with the submit button. The script holds three pieces of state: the current
step, an in-memory `formData` map, and two localStorage slots that mirror them.

This project models the script's logic as pure Dafny functions over immutable data:

- **Pages.** A page is the controls of each step container in document order (`Dom.Page`):
  text fields, checkboxes, radios and file inputs, with the `value`, `checked` and `files`
  properties the script reads.
- **Field rules.** `validateField` is modelled with its required check and its per-name rules.
  The two regular expressions are written as character scanners. Each scanner is proved equal
  to an independent description of the regex's language.
- **Step validation.** `validateCurrentStep` is the list of errors the step reports. On step 3
  it adds the participation rules.
- **Roster.** `generateTeamMemberFields` is modelled from the selected team size.
- **Persistence.** `saveCurrentStepData`, `loadSavedData` and `clearSavedData` work on the two
  storage slots. The resume prompt and its answer are an input.
- **Navigation.** `nextStep` and `prevStep` are modelled, with the progress bar and the step
  indicators.
- **Submission.** The submit handler builds the multipart payload, interprets the server's
  response and classifies the error. The request is an input: the `Response` it produced.
- **Sessions.** `Session.Run` applies any sequence of Next, Previous and Submit presses. Across
  every such sequence the step stays in 1..5 and the storage stays in sync with `formData`.

The model keeps the script's own behaviour, including behaviour a reader may not expect:

- The submit handler validates and saves whatever step is current. Nothing restricts it to
  step 5 (`Submission.Submit`).
- The name rule's message says "at least 2 characters", but the rule rejects values shorter
  than one character. A non-empty trimmed value never is, so the rule never fails
  (`Validator.NameRuleNeverFails`).
- The submit loop reads entries named `teamMember{i}`. Nothing writes such entries: roster
  inputs are saved as `teamMember{i}FirstName` and so on, and reach the payload through the
  flat section (`Submission.RosterNeverReachesMemberLoop`).
- The step slot is written before the step is incremented. A reload after Next resumes on the
  step that was just completed (`Wizard.SavedStepTrailsNext`).
- `validateField` reads `.value`. For a checkbox or a radio that is the value attribute, so a
  `required` checkbox passes the script's own check whether or not it is ticked.
- Choosing a smaller team size replaces the roster on the page. Values already saved for
  removed members stay in `formData`.
- A saved step above 5 is resumed as it is. The wizard itself only ever writes 1..5
  (`Persistence.StepSlotInRange`).

JavaScript details are modelled explicitly:

- the `\s` class and `trim()`
- `includes`
- `parseInt` with white space, sign, `0x` prefix and `NaN`
- `String(n)`
- truthiness
- `Object.keys` of a string (one key per code point, see "Left out") and of the file-metadata
  object
- the text `FormData.append` makes of a boolean or an object

## Model

| member | source | states |
|---|---|---|
| Chars.Trim | script.js:110 | the trimmed value is the raw value with a blank prefix and a blank suffix cut off; it is empty exactly when the raw value is all white space, and otherwise begins and ends with a non-space character |
| Chars.TrimIdempotent | script.js:110 | trimming an already trimmed value changes nothing |
| Chars.ContainsIffWindow | script.js:605 | `includes` finds a word exactly when some window of the text equals it |
| Chars.NatToString | script.js:393 | the step number is written as non-empty decimal digits without a leading zero, denoting the number |
| Chars.ParseNatToString | script.js:404-406 | `parseInt` reads back exactly the step number that was written |
| Chars.ParseInt | script.js:218 | a non-empty run of decimal digits reads as the number it denotes; text without any decimal digit is `NaN` (`None`), whatever white space or sign it holds |
| Chars.ParseIntSkipsSpace | script.js:218 | leading white space is skipped: any blank prefix leaves the result unchanged |
| Chars.ParseIntSigned | script.js:218 | a '-' before a run of digits negates the number it denotes, and a '+' keeps it |
| Chars.ParseIntStopsAtNonDigit | script.js:218 | a run of digits followed by a non-digit reads as the digits alone, so trailing text is ignored; the one exception is a lone "0" followed by 'x' or 'X', a base-16 prefix |
| Dom.ValueOf | script.js:110 | a file input's value is empty exactly when no file is selected |
| Dom.ById | script.js:582 | `getElementById` returns the first control of the page with that id, or none when no control has it |
| Validator.ValidateField | script.js:109-161 | a blank required field fails with "This field is required" under `{name}Error`; every failure uses that id; fields without a rule pass exactly when not missing |
| Validator.NameRuleNeverFails | script.js:122-128 | a first or last name fails only when it is required and blank |
| Validator.EmailScanMatchesPattern | script.js:131 | the scanner accepts exactly the language of `^[^\s@]+@[^\s@]+\.[^\s@]+$` |
| Validator.EmailRule | script.js:130-136 | a present email passes exactly when its trimmed value matches the pattern; a failure carries the email message |
| Validator.EmailAccepts | script.js:131 | "a@b.co" is accepted |
| Validator.EmailNeedsDot | script.js:131 | "a@b" is rejected for lack of a dot in the domain |
| Validator.EmailRejectsSpace | script.js:131 | "a b@c.com" is rejected for its white space |
| Validator.StripPhone | script.js:140 | removing white space, '-', '(' and ')' leaves no such character and nothing that was not there |
| Validator.StripPhoneConcat | script.js:140 | the removal works piece by piece over a concatenation |
| Validator.StripPhoneIdempotent | script.js:140 | removing filler twice is removing it once |
| Validator.PhoneScanMatchesPattern | script.js:139 | the scanner accepts exactly the language of `^[\+]?[1-9][\d]{0,15}$` |
| Validator.PhoneShape | script.js:139 | an accepted number has at most 17 characters and no leading zero after the optional '+' |
| Validator.PhoneRule | script.js:138-144 | a present phone number passes exactly when, trimmed and stripped of filler, it matches the pattern; a failure carries the phone message |
| Validator.PhoneAccepts | script.js:139 | "+15551234567" is accepted |
| Validator.PhoneRejectsLeadingZero | script.js:139 | "0015551234567" is rejected |
| Validator.PhoneRejectsSeventeenDigits | script.js:139 | seventeen digits are rejected |
| Validator.PdfCheck | script.js:146-157 | no file passes; a non-PDF type fails with the type message before any size check; a PDF fails exactly when above 10 MiB |
| Validator.PdfRule | script.js:146-157 | only `pdf1` gets the file rule; `pdf2` and `pdf3` pass once the required check passes |
| Validator.OptionalEmptyPasses | script.js:114-118 | an empty field that is not required passes whatever its name |
| StepValidation.FieldErrors | script.js:76-80 | every failing required control's verdict is reported, every reported verdict is a failure of a required control, and there are no more verdicts than controls; none exactly when every required control passes |
| StepValidation.CheckedParticipation | script.js:85 | the first checked participation control in document order, when there is one; otherwise none of that name is checked |
| StepValidation.RosterErrors | script.js:94-100 | every blank required roster input gets "This field is required" under its own error id, every reported error comes from such an input, and there are no more errors than inputs; none exactly when the roster is filled |
| StepValidation.ParticipationErrors | script.js:84-102 | nothing is reported exactly when a type is chosen and a team also has a size and a filled roster; no type checked gives only the `participationTypeError` message, a team without a size only the `teamSizeError` message, a team with a size the roster's errors, and any other type nothing |
| StepValidation.ValidateCurrentStep | script.js:66-106 | the step passes exactly when every required control passes and, on step 3, the participation rules hold |
| StepValidation.Step3NeedsParticipation | script.js:86-88 | step 3 fails without a participation type |
| StepValidation.Step3TeamNeedsSizeAndRoster | script.js:89-101 | a team fails step 3 without a size or with a blank roster input |
| StepValidation.InvalidFieldBlocksStep | script.js:76-80 | any failing required control blocks its step |
| StepValidation.MissingFieldBlocksStep | script.js:76-80 | a blank required control blocks its step and its "This field is required" is among the reported errors |
| StepValidation.Step3Solo | script.js:84-104 | a solo entry needs only the step's required controls |
| Roster.MembersAt | script.js:224-257 | position `k` of the roster is sub-field `k % 4` of member `2 + k / 4` |
| Roster.GenerateTeamMemberFields | script.js:217-258 | the roster holds `4 * (size - 1)` inputs for a size of 2 or more and none otherwise, each required, empty and named after its member and sub-field |
| Roster.MemberFieldNamesDistinct | script.js:235-252 | two roster field names are equal only for the same member and sub-field |
| Roster.RosterNamesDistinct | script.js:217-258 | no two inputs of a generated roster share a name |
| Roster.MemberFieldNameNotBareKey | script.js:235-252 | a roster field name is never a bare `teamMember{j}` key |
| Roster.TeamSizeOfDigit | script.js:218 | a one-digit size option is read as that number |
| Roster.RosterOfFour | script.js:218-257 | a team of four has twelve inputs, from member 2's first name to member 4's phone |
| Roster.RosterOfOne | script.js:224 | a team of one, or no size selected, has no roster |
| Persistence.Contribution | script.js:372-388 | a checkbox writes its state, a text control its value, a checked radio its value and a file input its first file's metadata; an unchecked radio and an empty file input write nothing |
| Persistence.MergeInputs | script.js:371-389 | keys no control of the step names keep their value; keys are only added by controls of the step; a new value is never null |
| Persistence.MergeLastWriteWins | script.js:371-389 | after the merge each key holds what the last control of that name wrote, or its old value when none wrote |
| Persistence.MergeIdempotent | script.js:371-389 | saving the same step twice is saving it once |
| Persistence.SaveCurrentStepData | script.js:367-394 | the step is unchanged; each key holds what the step's last control of that name wrote, or its old value when none wrote; both slots hold the new map and the current step's number |
| Persistence.SilentControlsKeepValue | script.js:375-385 | an unchecked radio or an empty file input leaves the saved value alone |
| Persistence.ClearThenReload | script.js:435-439 | after clearing, a reload asks nothing and starts at step 1 with empty data, whatever the answer would have been |
| Persistence.LoadSavedData | script.js:396-415 | saved data is restored; the step changes only when the prompt is accepted for a saved step above 1; a refusal clears everything; storage changes only on a refusal |
| Persistence.SavedStepOfSave | script.js:393 | the step slot a save writes reads back as the current step |
| Persistence.SaveKeepsStepSlotInRange | script.js:393 | every save leaves a step slot between 1 and 5 |
| Persistence.SaveThenResume | script.js:396-415 | a reload after a save, with the prompt accepted, gives back exactly the saved step and data |
| Persistence.SaveThenDecline | script.js:405-412 | a reload after a save on step 2 or later, with the prompt refused, starts over empty at step 1 |
| Wizard.NextStep | script.js:19-29 | a step that does not validate changes nothing; otherwise the data is saved and the step advances, except on the last step |
| Wizard.PrevStep | script.js:31-39 | the data is always saved; the step goes back one, except on the first step |
| Wizard.NextMovesAtMostOne | script.js:19-29 | Next never skips or goes back, and advances exactly when the step validates below the last step |
| Wizard.SavedStepTrailsNext | script.js:21-23 | after a successful Next the saved step is the one just completed, one behind the step shown |
| Wizard.BackThenForward | script.js:19-39 | Previous followed by a successful Next returns to the same step |
| Wizard.ProgressPercent | script.js:180-184 | the bar's width is exactly `step / 5` of 100 percent, between 20 and 100 |
| Wizard.UpdateStepIndicators | script.js:186-201 | only the current step's indicator is active; earlier ones are completed and show a check mark; later ones are pending and show their number; the active one keeps what it showed |
| Wizard.Statuses | script.js:188-198 | of indicators 1..n, indicator `k` is active exactly when `k` is the current step, completed exactly when `k` is below it and pending exactly when `k` is above it |
| Wizard.StatusCounts | script.js:188-198 | among indicators 1..n, one is active when the step is among them, `step - 1` are completed and the rest pending |
| Wizard.IndicatorsPartition | script.js:186-201 | on every step the five indicators show one active, `step - 1` completed and `5 - step` pending |
| Wizard.BackKeepsCheckMark | script.js:191-198 | going back leaves the check mark on the indicator that becomes active again |
| Summary.YearText | script.js:531-540 | the label is non-empty exactly for one of the five option strings, and is then one of the five labels |
| Summary.YearTextTable | script.js:533-537 | each option string gets the label in the same position |
| Summary.YearTextInjective | script.js:531-540 | different years never share a label |
| Summary.YearTextIsStrict | script.js:531-540 | examples of the strict comparison: a checkbox flag, the text "5" and a missing entry have no label (the general statement is `Summary.YearText`) |
| Submission.TextFieldsRoundTrip | script.js:561-565 | data made only of strings is sent in the first section exactly as it is: reading the parts back gives the same map |
| Submission.NullEntriesSkipped | script.js:562 | an entry is sent in the first section exactly when it is not null |
| Submission.MemberBound | script.js:568-569 | the member loop runs only for a team with a truthy size, and then up to `parseInt` of the size (`NaN` runs no iteration) |
| Submission.ExpandSpellsText | script.js:572-574 | the parts a string entry expands to are one per character and spell the string out again |
| Submission.MemberPartsWithoutKeys | script.js:569-576 | without `teamMember{i}` entries the member loop adds nothing |
| Submission.MemberKeyNotInRoster | script.js:570 | no generated roster input is named like a key the member loop reads |
| Submission.RosterNeverReachesMemberLoop | script.js:568-577 | data whose member keys all come from a generated roster sends no member section |
| Submission.StringMemberSentPerCharacter | script.js:572-574 | for every member number and string: a string entry would be sent as one part per character, each part holding that one character under `teamMember` followed by digits only, the parts spelling the string back; for example "Al" for member 2 becomes `teamMember20` = "A" and `teamMember21` = "l" |
| Submission.FileParts | script.js:580-586 | every file part carries the first file of a PDF slot that holds one, and every such slot has a part |
| Submission.FilePartsFollowIds | script.js:580-586 | the file parts follow the slots that hold a file, in slot order |
| Submission.FilePartsDistinct | script.js:580-586 | distinct slot ids give file parts with distinct ids, so no slot is sent twice |
| Submission.BuildPayload | script.js:558-590 | the first section holds exactly the non-null entries, a string verbatim, a flag as "true" or "false", the saved file metadata as "[object Object]" (beside the real file part of the same name); the file section holds one part per PDF slot with a file, carrying the slot's first file, in slot order, without repeats; the agreement part is "true" exactly when the box is ticked, else "false" |
| Submission.Settle | script.js:593-619 | the request succeeds exactly for an ok JSON response whose reply reports success, and then carries that reply's `registration_id`; a bad status throws the HTTP error |
| Submission.ErrorMessage | script.js:625-632 | every alert starts with "Registration failed: "; a failed fetch gets the connection advice; an HTTP error gets the server-error text quoting the message; other messages follow the prefix unchanged |
| Submission.Submit | script.js:544-637 | a step that does not validate changes nothing and sends nothing; otherwise the saved data is sent; success clears everything and shows the registration id of the reply; failure keeps the saved data and alerts |
| Submission.FailureKeepsSavedData | script.js:621-634 | after a failed submission the data stays saved under the current step and a reload resumes it |
| Submission.HttpStatusAlert | script.js:599-629 | an HTTP error status is shown as a server error quoting the status |
| Submission.NetworkFailureAlert | script.js:626-627 | the browser's "Failed to fetch" is shown as a connection problem |
| Submission.NonJsonIsInvalidFormat | script.js:604-608 | a response with no content type, or one without the JSON type, is an invalid-format error even with an ok status, whatever its body |
| Submission.HtmlPageIsInvalidFormat | script.js:604-608 | an HTML page served with an ok status is an invalid-format error |
| Submission.RefusalIsThrown | script.js:613-618 | any ok JSON reply without success throws the server's error text, or "Registration failed" when the text is missing or empty |
| Submission.PlainMessageShownAsIs | script.js:630-631 | a message that is neither a TypeError mentioning fetch nor an HTTP error is shown after the prefix unchanged |
| Submission.RefusalAlert | script.js:618 | a refusal with "Email taken" alerts "Registration failed: Email taken" |
| Submission.DefaultRefusalAlert | script.js:618 | a refusal without a text alerts "Registration failed: Registration failed" |
| Session.Apply | script.js:19-39 | every button press keeps the step in 1..5 |
| Session.Run | script.js:19-39 | any sequence of presses keeps the step in 1..5 |
| Session.LoadIsGood | script.js:396-415 | start-up from storage the wizard wrote gives a step in range with storage in sync with `formData` |
| Session.ApplyKeepsGood | script.js:367-394 | Next, Previous and Submit each keep the step in range, the step slot in range and the data slot in sync |
| Session.RunKeepsGood | script.js:19-39 | the invariant holds after any sequence of presses |
| Session.ReloadAfterAnySession | script.js:396-415 | a reload at any point, with the prompt accepted, gives back all of `formData` and a step in 1..5 |

## Left out

- `showStep`, `showError`, `generateConfirmationSummary`, `showSuccessMessage` and the loading
  overlay only render. The model keeps what they are given: the step, the verdicts, the
  registration id and the alert text.
- `populateForm` writes saved values back into the controls. The model takes the page as it
  stands at each press as an input, so restored control values are part of that input.
- `toggleTeamDetails` only hides the team section and resets the roster on the page. Its effect
  on the page is part of the page input.
- `setupFileUploads` handles drag and drop. A drop sets the file input's `files`
  (script.js:296), and that reaches the model through the page input: it is what
  `saveCurrentStepData` saves and what the submit handler sends. The drag styling and the
  selected-file label are not modelled.
- `setupFormValidation` re-validates a field when it loses focus, which only shows messages.
  Its typing handler calls `clearError` (script.js:308), and `checkFieldAvailability` calls
  `isValidEmail` and `isValidPhone` (script.js:337, 340). None of the three is defined in
  `script.js`. Either way these handlers change nothing the wizard saves or sends, so they,
  `debounce` and the availability request are not modelled.
- `downloadConfirmation` builds a text file for download.
- The browser's own constraint validation of `required` and `type` attributes before the submit
  event is not modelled. Only the script's checks are.
- JSON serialisation is taken as exact on the map the wizard writes, because it holds only
  strings, booleans and file metadata. A reply that is JSON but not an object (for example
  `null`) is not modelled.
- `parseInt` results are unbounded integers, with no floating-point rounding of very long
  digit runs.
- Every step function assumes the markup the script dereferences without a null check
  (`Dom.Page.WellFormed`): five step containers, `#teamSize` and `#agreement`, and file
  inputs behind the PDF ids. It also assumes that every required control named `pdf1` is a
  file input, because the `pdf1` rule reads `field.files.length` (script.js:147), and that
  is `null` for any other control. On a page without them the script throws a TypeError. In
  `nextStep` (script.js:89, 147) that means nothing happens. In the submit handler a PDF id on a
  control without files (script.js:583) or a missing `#agreement` (script.js:590) throws
  inside the `try`, so the error is caught, the data stays saved and an alert is shown.
  Such pages are not modelled.
- Strings are sequences of code points. JavaScript's `.length` and `Object.keys` of a string
  count UTF-16 code units, so for characters outside the Basic Multilingual Plane the
  per-character member parts (`Submission.Expand`) differ from the script's.
- The order in which `Object.keys` lists `formData` is not modelled: the first payload section
  is a map from key to text.
- `response.text()` only feeds a log line and is not modelled.
- Concurrency is out of scope: the model has no double-submit guard, and none is in the script.
- Wizard.ProgressPercent: states the exact ratio, not the CSS text of the width.

=== FILE: chars.dfy ===
/** The string primitives the wizard relies on, in JavaScript's terms: the `\s` class,
    `String.prototype.trim`, `String.prototype.includes`, the global `parseInt` and the
    decimal rendering of a non-negative number. Strings are sequences of code points. */
module Chars {
  import opened Wrappers

  /** JavaScript's WhiteSpace and LineTerminator code points: exactly what the regex class
      `\s` matches and what `trim()` and `parseInt` skip. */
  predicate IsSpace(c: char) {
    var n := c as int;
    || n == 0x09 || n == 0x0A || n == 0x0B || n == 0x0C || n == 0x0D || n == 0x20
    || n == 0xA0 || n == 0x1680 || (0x2000 <= n <= 0x200A) || n == 0x2028 || n == 0x2029
    || n == 0x202F || n == 0x205F || n == 0x3000 || n == 0xFEFF
  }

  /** The regex class `\d`: ASCII digits only. */
  predicate IsDigit(c: char) {
    '0' <= c <= '9'
  }

  predicate AllDigits(s: string) {
    forall i :: 0 <= i < |s| ==> IsDigit(s[i])
  }

  /** Every character is white space (the empty string included): `s.trim()` is falsy. */
  predicate Blank(s: string) {
    forall i :: 0 <= i < |s| ==> IsSpace(s[i])
  }

  /** `trimStart`: drops the longest all-space prefix. */
  function TrimStart(s: string): (r: string)
    ensures |r| <= |s| && r == s[|s| - |r|..]
    ensures |r| > 0 ==> !IsSpace(r[0])
    ensures Blank(s[..|s| - |r|])
  {
    if |s| > 0 && IsSpace(s[0]) then
      var r := TrimStart(s[1..]);
      assert s[..|s| - |r|] == [s[0]] + s[1..][..|s[1..]| - |r|];
      r
    else
      s
  }

  /** `trimEnd`: drops the longest all-space suffix. */
  function TrimEnd(s: string): (r: string)
    ensures |r| <= |s| && r == s[..|r|]
    ensures |r| > 0 ==> !IsSpace(r[|r| - 1])
    ensures Blank(s[|r|..])
  {
    if |s| > 0 && IsSpace(s[|s| - 1]) then
      var r := TrimEnd(s[..|s| - 1]);
      assert s[|r|..] == s[..|s| - 1][|r|..] + [s[|s| - 1]];
      r
    else
      s
  }

  /** `String.prototype.trim`: the string without leading and trailing white space. It is
      empty exactly when the input is blank, and otherwise starts and ends with a non-space;
      it is the input with a blank prefix and a blank suffix cut off. */
  function Trim(s: string): (r: string)
    ensures r == [] <==> Blank(s)
    ensures |r| > 0 ==> !IsSpace(r[0]) && !IsSpace(r[|r| - 1])
    ensures |r| <= |s|
    ensures exists i, j :: 0 <= i <= j <= |s| && r == s[i..j] && Blank(s[..i]) && Blank(s[j..])
  {
    TrimFacts(s);
    TrimIsSlice(s);
    TrimEnd(TrimStart(s))
  }

  lemma TrimIsSlice(s: string)
    ensures var r := TrimEnd(TrimStart(s));
      exists i, j :: 0 <= i <= j <= |s| && r == s[i..j] && Blank(s[..i]) && Blank(s[j..])
  {
    var t := TrimStart(s);
    var r := TrimEnd(t);
    var i := |s| - |t|;
    var n := |r|;
    assert t == s[i..] && r == t[..n];
    SliceOfSuffix(s, i, n);
    assert Blank(s[i + n..]) by { assert s[i + n..] == t[n..]; }
  }

  lemma SliceOfSuffix(s: string, i: int, n: int)
    requires 0 <= i <= |s| && 0 <= n <= |s| - i
    ensures s[i..][..n] == s[i..i + n] && s[i..][n..] == s[i + n..]
  {
  }

  lemma TrimFacts(s: string)
    ensures TrimEnd(TrimStart(s)) == [] <==> Blank(s)
  {
    var t := TrimStart(s);
    var r := TrimEnd(t);
    var i := |s| - |t|;
    if r == [] {
      assert t[|r|..] == t;
      BlankJoin(s, i);
    } else {
      assert r[0] == t[0] == s[i];
    }
  }

  /** A string whose two halves are blank is blank. */
  lemma BlankJoin(s: string, i: int)
    requires 0 <= i <= |s| && Blank(s[..i]) && Blank(s[i..])
    ensures Blank(s)
  {
    forall k | 0 <= k < |s|
      ensures IsSpace(s[k])
    {
      if k < i {
        assert s[k] == s[..i][k];
      } else {
        assert s[k] == s[i..][k - i];
      }
    }
  }

  /** Trimming twice is trimming once. */
  lemma TrimIdempotent(s: string)
    ensures Trim(Trim(s)) == Trim(s)
  {
    var r := Trim(s);
    if |r| > 0 {
      assert TrimStart(r) == r;
      assert TrimEnd(r) == r;
    }
  }

  /** `s.startsWith(t)`. */
  predicate StartsWith(s: string, t: string) {
    |t| <= |s| && s[..|t|] == t
  }

  /** `s.includes(t)`, scanning the start positions left to right. */
  predicate Contains(s: string, t: string)
    decreases |s|
  {
    StartsWith(s, t) || (|s| > 0 && Contains(s[1..], t))
  }

  /** The scan finds `t` exactly when some window of `s` equals `t`. */
  lemma {:induction false} ContainsIffWindow(s: string, t: string)
    ensures Contains(s, t) <==> exists k :: 0 <= k <= |s| - |t| && s[k..][..|t|] == t
    decreases |s|
  {
    if StartsWith(s, t) {
      assert s[0..][..|t|] == t;
    } else if |s| > 0 {
      ContainsIffWindow(s[1..], t);
      if Contains(s[1..], t) {
        var k :| 0 <= k <= |s[1..]| - |t| && s[1..][k..][..|t|] == t;
        assert s[k + 1..] == s[1..][k..];
      }
      if exists k :: 0 <= k <= |s| - |t| && s[k..][..|t|] == t {
        var k :| 0 <= k <= |s| - |t| && s[k..][..|t|] == t;
        assert k != 0;
        assert s[1..][k - 1..] == s[k..];
      }
    }
  }

  /** Any string contains itself after a prefix and before a suffix. */
  lemma ContainsInfix(a: string, t: string, b: string)
    ensures Contains(a + t + b, t)
  {
    var s := a + t + b;
    assert s[|a|..][..|t|] == t;
    ContainsIffWindow(s, t);
  }

  /** A string cannot contain a word whose first character it lacks. */
  lemma {:induction false} MissingFirstChar(s: string, t: string)
    requires |t| > 0 && t[0] !in s
    ensures !Contains(s, t)
    decreases |s|
  {
    if |s| > 0 {
      assert forall c :: c in s[1..] ==> c in s;
      MissingFirstChar(s[1..], t);
    }
  }

  /** Value of a digit character in base 10, or in base 16 when `hex`; -1 when it is not a
      digit there. */
  function DigitValue(c: char, hex: bool): (d: int)
    ensures d < Radix(hex)
    ensures !hex ==> (d >= 0 <==> IsDigit(c))
  {
    if '0' <= c <= '9' then (c as int) - ('0' as int)
    else if hex && 'a' <= c <= 'f' then (c as int) - ('a' as int) + 10
    else if hex && 'A' <= c <= 'F' then (c as int) - ('A' as int) + 10
    else -1
  }

  function Radix(hex: bool): int {
    if hex then 16 else 10
  }

  /** The longest prefix of `s` made of digits of the base. */
  function DigitPrefix(s: string, hex: bool): (r: string)
    ensures |r| <= |s| && r == s[..|r|]
    ensures forall i :: 0 <= i < |r| ==> DigitValue(r[i], hex) >= 0
    ensures |r| < |s| ==> DigitValue(s[|r|], hex) < 0
  {
    if |s| > 0 && DigitValue(s[0], hex) >= 0 then [s[0]] + DigitPrefix(s[1..], hex) else []
  }

  /** The number a digit string denotes in the base, most significant digit first. */
  function DigitsNumber(d: string, hex: bool): nat
    requires forall i :: 0 <= i < |d| ==> DigitValue(d[i], hex) >= 0
  {
    if |d| == 0 then 0
    else DigitsNumber(d[..|d| - 1], hex) * Radix(hex) + DigitValue(d[|d| - 1], hex)
  }

  /** The global `parseInt(s)` with no radix: leading white space is skipped, one sign is
      read, a `0x`/`0X` prefix selects base 16, and the longest run of digits that follows
      is read. No digits at all is `NaN`, here `None`. */
  function ParseInt(s: string): (r: Option<int>)
    ensures |s| > 0 && AllDigits(s) ==> r == Some(DigitsNumber(s, false))
    ensures NoDigits(s) ==> r.None?
  {
    DigitRunRead(s);
    NoDigitsRead(s);
    ParseSigned(TrimStart(s))
  }

  /** Text with no decimal digit reads as `NaN`, whatever white space and sign it holds. */
  lemma NoDigitsRead(s: string)
    ensures NoDigits(s) ==> ParseSigned(TrimStart(s)) == None
  {
    var t := TrimStart(s);
    var u := if |t| > 0 && (t[0] == '-' || t[0] == '+') then t[1..] else t;
    assert u == s[|s| - |u|..];
    NoDigitsSuffix(s, |s| - |u|);
    NoDigitUnsigned(u);
  }

  /** `parseInt` after the white space: one sign, then the digits. */
  function ParseSigned(t: string): Option<int> {
    if |t| > 0 && t[0] == '-' then
      match ParseUnsigned(t[1..])
      case Some(n) => Some(-(n as int))
      case None => None
    else if |t| > 0 && t[0] == '+' then ParseUnsigned(t[1..])
    else ParseUnsigned(t)
  }

  /** No character is a decimal digit. */
  predicate NoDigits(s: string) {
    forall i :: 0 <= i < |s| ==> !IsDigit(s[i])
  }

  lemma NoDigitsSuffix(s: string, k: int)
    requires 0 <= k <= |s|
    ensures NoDigits(s) ==> NoDigits(s[k..])
  {
    assert forall i :: 0 <= i < |s| - k ==> s[k..][i] == s[k + i];
  }

  /** Without a decimal digit there is nothing to read: the base-16 prefix itself starts
      with '0'. */
  lemma NoDigitUnsigned(u: string)
    ensures NoDigits(u) ==> ParseUnsigned(u) == None
  {
    if NoDigits(u) && |u| > 0 {
      assert DigitValue(u[0], false) < 0;
    }
  }

  /** The digits of a run of decimal digits are all of it. */
  lemma DigitRunWhole(d: string)
    requires AllDigits(d)
    ensures DigitPrefix(d, false) == d
  {
  }

  /** A run of decimal digits is read as the number it denotes. */
  lemma DigitRunRead(d: string)
    ensures |d| > 0 && AllDigits(d) ==> ParseUnsigned(d) == Some(DigitsNumber(d, false)) && TrimStart(d) == d
  {
    if |d| > 0 && AllDigits(d) {
      DigitRunWhole(d);
      assert !IsSpace(d[0]);
      assert !(|d| >= 2 && d[0] == '0' && (d[1] == 'x' || d[1] == 'X'));
    }
  }

  /** Leading white space is skipped: `parseInt(" 7")` is `parseInt("7")`. */
  lemma {:induction false} ParseIntSkipsSpace(w: string, s: string)
    requires Blank(w)
    ensures ParseInt(w + s) == ParseInt(s)
  {
    TrimStartSkips(w, s);
    assert ParseInt(w + s) == ParseSigned(TrimStart(w + s));
    assert ParseInt(s) == ParseSigned(TrimStart(s));
  }

  lemma {:induction false} TrimStartSkips(w: string, s: string)
    requires Blank(w)
    ensures TrimStart(w + s) == TrimStart(s)
    decreases |w|
  {
    if |w| > 0 {
      assert (w + s)[1..] == w[1..] + s;
      TrimStartSkips(w[1..], s);
    } else {
      assert w + s == s;
    }
  }

  /** One leading sign is read: a minus negates the number the digits after it denote, a
      plus keeps it. */
  lemma ParseIntSigned(d: string)
    requires |d| > 0 && AllDigits(d)
    ensures ParseInt(d) == Some(DigitsNumber(d, false))
    ensures ParseInt("-" + d).Some? && ParseInt("-" + d).value == -ParseInt(d).value
    ensures ParseInt("+" + d) == ParseInt(d)
  {
    DigitRunRead(d);
    var n := DigitsNumber(d, false);
    assert ParseInt(d) == Some(n);
    var m, p := "-" + d, "+" + d;
    assert m[0] == '-' && m[1..] == d;
    assert p[0] == '+' && p[1..] == d;
    SignedIsTrimmed(m);
    NegativeRead(m, n);
    SignedIsTrimmed(p);
    PositiveRead(p, n);
  }

  /** A minus negates what the digits after it read as. */
  lemma NegativeRead(t: string, n: nat)
    requires |t| > 0 && t[0] == '-' && ParseUnsigned(t[1..]) == Some(n)
    ensures ParseSigned(t) == Some(-(n as int))
  {
  }

  /** A plus keeps what the digits after it read as. */
  lemma PositiveRead(t: string, n: nat)
    requires |t| > 0 && t[0] == '+' && ParseUnsigned(t[1..]) == Some(n)
    ensures ParseSigned(t) == Some(n)
  {
  }

  /** A text that starts with a sign has no white space to skip. */
  lemma SignedIsTrimmed(t: string)
    requires |t| > 0 && (t[0] == '-' || t[0] == '+')
    ensures ParseInt(t) == ParseSigned(t)
  {
    assert !IsSpace(t[0]);
    assert TrimStart(t) == t;
  }

  /** Reading stops at the first character that is not a digit: `parseInt("3 members")` is
      3. The one exception is a lone "0" followed by 'x' or 'X', which selects base 16. */
  lemma ParseIntStopsAtNonDigit(d: string, rest: string)
    requires |d| > 0 && AllDigits(d)
    requires |rest| > 0 && !IsDigit(rest[0]) && !(d == "0" && (rest[0] == 'x' || rest[0] == 'X'))
    ensures ParseInt(d + rest) == Some(DigitsNumber(d, false))
  {
    var s := d + rest;
    assert s[0] == d[0] && !IsSpace(s[0]);
    assert TrimStart(s) == s;
    assert !(|s| >= 2 && s[0] == '0' && (s[1] == 'x' || s[1] == 'X')) by {
      if |d| == 1 {
        assert s[1] == rest[0];
        assert d == [d[0]];
      } else {
        assert s[1] == d[1];
      }
    }
    DigitPrefixOfRun(d, rest);
  }

  lemma {:induction false} DigitPrefixOfRun(d: string, rest: string)
    requires AllDigits(d) && (|rest| == 0 || !IsDigit(rest[0]))
    ensures DigitPrefix(d + rest, false) == d
    decreases |d|
  {
    if |d| > 0 {
      assert (d + rest)[1..] == d[1..] + rest;
      DigitPrefixOfRun(d[1..], rest);
      assert d == [d[0]] + d[1..];
    } else {
      assert d + rest == rest;
    }
  }

  /** `parseInt` after the sign: a `0x`/`0X` prefix selects base 16. */
  function ParseUnsigned(u: string): (r: Option<nat>)
  {
    var hex := |u| >= 2 && u[0] == '0' && (u[1] == 'x' || u[1] == 'X');
    var digits := DigitPrefix(if hex then u[2..] else u, hex);
    if digits == [] then None else Some(DigitsNumber(digits, hex))
  }

  function DigitChar(d: int): (c: char)
    requires 0 <= d < 10
    ensures IsDigit(c) && DigitValue(c, false) == d
  {
    (('0' as int) + d) as char
  }

  /** The decimal text of a non-negative number, as `String(n)` and template literals write
      it: digits only, without leading zeros. */
  function NatToString(n: nat): (r: string)
    ensures |r| > 0 && AllDigits(r)
    ensures r[0] == '0' ==> n == 0 && r == "0"
    ensures DigitsNumber(r, false) == n
    decreases n
  {
    if n < 10 then
      var r := [DigitChar(n)];
      assert r[..0] == [];
      r
    else
      var p := NatToString(n / 10);
      var r := p + [DigitChar(n % 10)];
      assert r[..|r| - 1] == p;
      r
  }

  /** `parseInt` reads back what `String(n)` wrote. */
  lemma ParseNatToString(n: nat)
    ensures ParseInt(NatToString(n)) == Some(n)
  {
    var s := NatToString(n);
    PlainDigitsParse(s);
    ParseDecimalDigits(s);
  }

  /** Text that starts with a digit is read by `parseInt` without skipping or a sign. */
  lemma PlainDigitsParse(s: string)
    requires |s| > 0 && IsDigit(s[0])
    ensures ParseInt(s) == ParseUnsigned(s)
  {
    assert !IsSpace(s[0]);
    assert TrimStart(s) == s;
  }

  lemma ParseDecimalDigits(s: string)
    requires |s| > 0 && AllDigits(s)
    requires s[0] == '0' ==> |s| == 1
    ensures ParseUnsigned(s) == Some(DigitsNumber(s, false))
  {
    DigitPrefixOfDigits(s, []);
    assert s + [] == s;
  }

  /** The decimal digit run at the front of `a + b` is `a` when `b` does not go on with a
      digit. */
  lemma {:induction false} DigitPrefixOfDigits(a: string, b: string)
    requires AllDigits(a)
    requires |b| == 0 || !IsDigit(b[0])
    ensures DigitPrefix(a + b, false) == a
  {
    if |a| > 0 {
      assert (a + b)[1..] == a[1..] + b;
      DigitPrefixOfDigits(a[1..], b);
    } else {
      assert a + b == b;
    }
  }

  /** Two decimal texts followed by texts that start with a non-digit split the same way
      only if the numbers and the rests agree: the digit run ends where the rest begins. */
  lemma DigitsThenRestSplit(a: string, b: string, c: string, d: string)
    requires AllDigits(a) && AllDigits(c)
    requires |b| > 0 && !IsDigit(b[0]) && |d| > 0 && !IsDigit(d[0])
    requires a + b == c + d
    ensures a == c && b == d
  {
    DigitPrefixOfDigits(a, b);
    DigitPrefixOfDigits(c, d);
    assert b == (a + b)[|a|..] && d == (c + d)[|c|..];
  }

  /** A digit run followed by a non-digit is never a digit run. */
  lemma DigitsThenRestNotDigits(a: string, b: string, c: string)
    requires AllDigits(a) && AllDigits(c)
    requires |b| > 0 && !IsDigit(b[0])
    ensures a + b != c
  {
    DigitPrefixOfDigits(a, b);
    DigitPrefixOfDigits(c, []);
    assert c + [] == c;
  }

  /** A common prefix can be cancelled. */
  lemma PrefixCancel(p: string, x: string, y: string)
    requires p + x == p + y
    ensures x == y
  {
    assert x == (p + x)[|p|..] && y == (p + y)[|p|..];
  }

  /** Different numbers have different decimal texts. */
  lemma NatToStringInjective(m: nat, n: nat)
    requires NatToString(m) == NatToString(n)
    ensures m == n
  {
  }
}

=== FILE: dom.dfy ===
/** What the wizard reads from the page: the form controls of each step container, in
    document order, as plain values. Rendering, focus and animation are not modelled. */
module Dom {
  import opened Wrappers

  const TotalSteps: int := 5

  /** The step container `#step3` holds the `#teamMemberFields` roster. */
  const RosterStep: int := 3

  /** What the script reads of a selected `File`: name, size in bytes and MIME type. */
  datatype FileInfo = FileInfo(name: string, size: nat, mime: string)

  /** The state of one form control.
      - `Field`: text-like inputs (text, email, tel, hidden, ...), `select` and `textarea`,
        with the string the `value` property reports;
      - `Check`: a checkbox, with its `checked` state and its `value` attribute;
      - `Choice`: a radio button, likewise;
      - `Upload`: a file input, with its selected files. */
  datatype Control =
    | Field(text: string)
    | Check(checked: bool, attr: string)
    | Choice(selected: bool, option: string)
    | Upload(files: seq<FileInfo>)

  /** A control with its `id` (empty when it has none), `name` and `required` attribute. */
  datatype Input = Input(id: string, name: string, required: bool, control: Control)

  /** The prefix browsers put before the name of a selected file in a file input's value. */
  const FakePath: string := "C:\\fakepath\\"

  /** The `value` property of a control. A checkbox or radio reports its value attribute
      whether or not it is checked; a file input reports a fake path when a file is
      selected and the empty string otherwise. */
  function ValueOf(c: Control): (v: string)
    ensures c.Upload? ==> (v == [] <==> c.files == [])
  {
    match c
    case Field(t) => t
    case Check(_, a) => a
    case Choice(_, o) => o
    case Upload(fs) => if |fs| == 0 then [] else FakePath + fs[0].name
  }

  /** The `files` list of a control; only file inputs have files. */
  function Files(c: Control): seq<FileInfo> {
    if c.Upload? then c.files else []
  }

  /** The `checked` property; only checkboxes and radios can be checked. */
  predicate IsChecked(c: Control) {
    match c
    case Check(b, _) => b
    case Choice(b, _) => b
    case _ => false
  }

  /** The page: the controls inside each step container `#step1` .. `#step5`, in document
      order, and the controls currently generated inside `#teamMemberFields`. */
  datatype Page = Page(steps: seq<seq<Input>>, roster: seq<Input>) {

    /** The markup the script dereferences without a null check: five step containers,
        the `teamSize` and `agreement` controls, file inputs behind the PDF ids, and a file
        input for every required control named `pdf1`, whose `files` the field rule reads. */
    predicate WellFormed() {
      && |steps| == TotalSteps
      && ById(Document(this), "teamSize").Some?
      && ById(Document(this), "agreement").Some?
      && (forall id | id in PdfIds :: ById(Document(this), id).Some? ==> ById(Document(this), id).value.control.Upload?)
      && (forall x | x in Document(this) && x.name == "pdf1" && x.required :: x.control.Upload?)
    }
  }

  /** The ids of the three PDF slots, in the order the payload lists them. */
  const PdfIds: seq<string> := ["pdf1", "pdf2", "pdf3"]

  /** The controls `#step{k}` holds, in document order; the roster sits inside step 3. */
  function StepInputs(page: Page, k: int): (r: seq<Input>)
    requires 1 <= k <= |page.steps|
    ensures forall x :: x in page.steps[k - 1] ==> x in r
    ensures k == RosterStep ==> forall x :: x in page.roster ==> x in r
  {
    page.steps[k - 1] + (if k == RosterStep then page.roster else [])
  }

  /** Every control of the page in document order. */
  function Document(page: Page): seq<Input> {
    Concat(page, 1)
  }

  function Concat(page: Page, k: nat): seq<Input>
    requires k >= 1
    decreases |page.steps| - k
  {
    if k > |page.steps| then [] else StepInputs(page, k) + Concat(page, k + 1)
  }

  /** `document.getElementById(id)`: the first control with that id. */
  function ById(doc: seq<Input>, id: string): (r: Option<Input>)
    ensures r.Some? ==> r.value in doc && r.value.id == id
    ensures r.None? ==> forall x :: x in doc ==> x.id != id
    ensures r.Some? ==> exists i :: 0 <= i < |doc| && doc[i] == r.value && forall j :: 0 <= j < i ==> doc[j].id != id
  {
    if |doc| == 0 then None
    else if doc[0].id == id then Some(doc[0])
    else
      var r := ById(doc[1..], id);
      if r.Some? then
        var i :| 0 <= i < |doc[1..]| && doc[1..][i] == r.value && forall j :: 0 <= j < i ==> doc[1..][j].id != id;
        assert doc[i + 1] == r.value && forall j :: 0 <= j < i + 1 ==> doc[j].id != id;
        r
      else r
  }
}

=== FILE: persistence.dfy ===
/** The wizard's state and its persistence: `saveCurrentStepData` merges one step's controls
    into `formData` and writes both localStorage slots; `loadSavedData` restores them at
    start-up, asking whether to resume; `clearSavedData` removes them. The two slots hold
    the serialised map and the step number as text; serialisation is taken as exact. */
module Persistence {
  import opened Wrappers
  import opened Chars
  import opened Dom

  /** One `formData` entry: a control's string value, a checkbox state, the metadata of a
      selected file, or a JSON `null` that a stored map may hold (the wizard never writes
      one itself). */
  datatype Value = Text(s: string) | Flag(b: bool) | File(meta: FileInfo) | Null

  type FormData = map<string, Value>

  /** The slots `hackathonFormData` and `hackathonFormCurrentStep`; `None` is a missing key. */
  datatype Storage = Storage(data: Option<FormData>, step: Option<string>)

  const Cleared: Storage := Storage(None, None)

  /** The page-global `currentStep` and `formData`, with the storage they are saved to. */
  datatype WizardState = WizardState(currentStep: int, formData: FormData, storage: Storage)

  /** What one control writes into `formData`: a checkbox its state, a radio its value only
      when checked, a file input the first file's metadata only when a file is selected, and
      every other control its raw value. */
  function Contribution(c: Control): (r: Option<Value>)
    ensures r.None? <==> (c.Choice? && !c.selected) || (c.Upload? && c.files == [])
    ensures r.Some? ==> r.value != Null
    ensures c.Check? ==> r == Some(Flag(c.checked))
    ensures c.Field? ==> r == Some(Text(c.text))
    ensures c.Choice? && c.selected ==> r == Some(Text(c.option))
    ensures c.Upload? && c.files != [] ==> r == Some(File(c.files[0]))
  {
    match c
    case Check(b, _) => Some(Flag(b))
    case Choice(b, v) => if b then Some(Text(v)) else None
    case Upload(fs) => if |fs| > 0 then Some(File(fs[0])) else None
    case Field(t) => Some(Text(t))
  }

  /** `formData[name] = ...` for one control, when it writes anything. */
  function Put(fd: FormData, x: Input): FormData {
    match Contribution(x.control)
    case None => fd
    case Some(v) => fd[x.name := v]
  }

  /** The names of the given controls. */
  function Names(inputs: seq<Input>): set<string> {
    set x | x in inputs :: x.name
  }

  /** The `forEach` of `saveCurrentStepData`: the controls written in document order. Keys
      that no control of the step names keep their value; a key is only added by a control
      that writes something. */
  function MergeInputs(fd: FormData, inputs: seq<Input>): (r: FormData)
    ensures forall k :: k in fd && k !in Names(inputs) ==> k in r && r[k] == fd[k]
    ensures forall k :: k in r ==> k in fd || k in Names(inputs)
    ensures forall k :: k in r ==> (k in fd && r[k] == fd[k]) || r[k] != Null
    decreases |inputs|
  {
    if |inputs| == 0 then fd
    else
      assert Names(inputs) == {inputs[0].name} + Names(inputs[1..]) by {
        assert inputs == [inputs[0]] + inputs[1..];
      }
      MergeInputs(Put(fd, inputs[0]), inputs[1..])
  }

  /** The value the LAST control named `k` that writes anything writes, found by scanning
      from the end: an independent description of what the merge leaves behind. */
  function LastWrite(inputs: seq<Input>, k: string): Option<Value> {
    if |inputs| == 0 then None
    else
      var x := inputs[|inputs| - 1];
      if x.name == k && Contribution(x.control).Some? then Contribution(x.control)
      else LastWrite(inputs[..|inputs| - 1], k)
  }

  function Lookup(fd: FormData, k: string): Option<Value> {
    if k in fd then Some(fd[k]) else None
  }

  lemma {:induction false} MergeSnoc(fd: FormData, inputs: seq<Input>, x: Input)
    ensures MergeInputs(fd, inputs + [x]) == Put(MergeInputs(fd, inputs), x)
    decreases |inputs|
  {
    if |inputs| == 0 {
      assert (inputs + [x])[1..] == [];
    } else {
      assert (inputs + [x])[1..] == inputs[1..] + [x];
      MergeSnoc(Put(fd, inputs[0]), inputs[1..], x);
    }
  }

  /** Last write wins: after the merge, a key holds what the last control of that name
      wrote, or its old value when no control of that name wrote anything. */
  lemma {:induction false} MergeLastWriteWins(fd: FormData, inputs: seq<Input>, k: string)
    ensures Lookup(MergeInputs(fd, inputs), k) == if LastWrite(inputs, k).Some? then LastWrite(inputs, k) else Lookup(fd, k)
    decreases |inputs|
  {
    if |inputs| > 0 {
      var init, x := inputs[..|inputs| - 1], inputs[|inputs| - 1];
      assert inputs == init + [x];
      MergeSnoc(fd, init, x);
      MergeLastWriteWins(fd, init, k);
    }
  }

  /** Last write wins, for every key at once. */
  lemma MergeMatchesLastWrite(fd: FormData, inputs: seq<Input>)
    ensures forall k :: (Lookup(MergeInputs(fd, inputs), k) ==
      if LastWrite(inputs, k).Some? then LastWrite(inputs, k) else Lookup(fd, k))
  {
    forall k
      ensures Lookup(MergeInputs(fd, inputs), k) ==
        if LastWrite(inputs, k).Some? then LastWrite(inputs, k) else Lookup(fd, k)
    {
      MergeLastWriteWins(fd, inputs, k);
    }
  }

  /** Saving the same step twice is saving it once. */
  lemma MergeIdempotent(fd: FormData, inputs: seq<Input>)
    ensures MergeInputs(MergeInputs(fd, inputs), inputs) == MergeInputs(fd, inputs)
  {
    var once := MergeInputs(fd, inputs);
    var twice := MergeInputs(once, inputs);
    forall k
      ensures (k in twice <==> k in once) && (k in once ==> twice[k] == once[k])
    {
      MergeLastWriteWins(once, inputs, k);
      MergeLastWriteWins(fd, inputs, k);
      assert Lookup(twice, k) == Lookup(once, k);
    }
  }

  /** `saveCurrentStepData`: the current step's controls are merged into `formData`, and
      both slots are overwritten with the whole map and the current step's number. */
  function SaveCurrentStepData(s: WizardState, page: Page): (r: WizardState)
    requires 1 <= s.currentStep <= |page.steps|
    ensures r.currentStep == s.currentStep
    ensures r.storage == Storage(Some(r.formData), Some(NatToString(s.currentStep)))
    ensures forall k :: k in s.formData && k !in Names(StepInputs(page, s.currentStep)) ==>
      k in r.formData && r.formData[k] == s.formData[k]
    ensures forall k :: k in r.formData ==> k in s.formData || k in Names(StepInputs(page, s.currentStep))
    ensures forall k :: (Lookup(r.formData, k) ==
      var w := LastWrite(StepInputs(page, s.currentStep), k);
      if w.Some? then w else Lookup(s.formData, k))
  {
    MergeMatchesLastWrite(s.formData, StepInputs(page, s.currentStep));
    var fd := MergeInputs(s.formData, StepInputs(page, s.currentStep));
    WizardState(s.currentStep, fd, Storage(Some(fd), Some(NatToString(s.currentStep))))
  }

  /** An unchecked radio and a file input without a file leave the saved value alone when
      no other control of that name writes. */
  lemma SilentControlsKeepValue(s: WizardState, page: Page, k: string)
    requires 1 <= s.currentStep <= |page.steps|
    requires forall x :: x in StepInputs(page, s.currentStep) && x.name == k ==>
      (x.control.Choice? && !x.control.selected) || (x.control.Upload? && x.control.files == [])
    ensures Lookup(SaveCurrentStepData(s, page).formData, k) == Lookup(s.formData, k)
  {
    var inputs := StepInputs(page, s.currentStep);
    MergeLastWriteWins(s.formData, inputs, k);
    LastWriteNoneWhenSilent(inputs, k);
  }

  lemma {:induction false} LastWriteNoneWhenSilent(inputs: seq<Input>, k: string)
    requires forall x :: x in inputs && x.name == k ==> Contribution(x.control).None?
    ensures LastWrite(inputs, k).None?
  {
    if |inputs| > 0 {
      assert forall y :: y in inputs[..|inputs| - 1] ==> y in inputs;
      LastWriteNoneWhenSilent(inputs[..|inputs| - 1], k);
    }
  }

  /** `clearSavedData`: both slots removed and `formData` emptied; the step stays. */
  function ClearSavedData(s: WizardState): (r: WizardState)
    ensures r.storage == Cleared && r.formData == map[]
    ensures r.currentStep == s.currentStep
  {
    WizardState(s.currentStep, map[], Cleared)
  }

  /** The data slot as `loadSavedData` restores it: the stored map, or nothing. */
  function SavedData(st: Storage): FormData {
    if st.data.Some? then st.data.value else map[]
  }

  /** The saved step as `loadSavedData` reads it: `parseInt` of a non-empty slot. */
  function SavedStep(st: Storage): Option<int> {
    if st.step.Some? && st.step.value != "" then ParseInt(st.step.value) else None
  }

  /** The resume prompt is shown exactly when a saved step above 1 is found. */
  predicate AsksToResume(st: Storage) {
    SavedStep(st).Some? && SavedStep(st).value > 1
  }

  /** The step slot holds a step number in range, as every save writes it. */
  predicate StepSlotInRange(st: Storage) {
    SavedStep(st).None? || 1 <= SavedStep(st).value <= TotalSteps
  }

  /** `loadSavedData` at start-up (step 1, empty data): saved data is restored; if a saved
      step above 1 exists, `resume` is the answer to the prompt, and a refusal clears both
      slots and the data. Storage is changed only by a refusal. */
  function LoadSavedData(st: Storage, resume: bool): (s: WizardState)
    ensures !AsksToResume(st) ==> s == WizardState(1, SavedData(st), st)
    ensures AsksToResume(st) && resume ==> s == WizardState(SavedStep(st).value, SavedData(st), st)
    ensures AsksToResume(st) && !resume ==> s == WizardState(1, map[], Cleared)
    ensures s.storage != st ==> AsksToResume(st) && !resume
    ensures StepSlotInRange(st) ==> 1 <= s.currentStep <= TotalSteps
  {
    var s := WizardState(1, SavedData(st), st);
    var saved := SavedStep(st);
    if saved.Some? && saved.value > 1 then
      if resume then s.(currentStep := saved.value) else ClearSavedData(s)
    else s
  }

  /** The step slot a save writes reads back as the current step. */
  lemma SavedStepOfSave(s: WizardState, page: Page)
    requires 1 <= s.currentStep <= |page.steps|
    ensures SavedStep(SaveCurrentStepData(s, page).storage) == Some(s.currentStep)
  {
    var st := SaveCurrentStepData(s, page).storage;
    assert st.step == Some(NatToString(s.currentStep));
    ParseNatToString(s.currentStep);
  }

  /** Every save leaves a step slot in range. */
  lemma SaveKeepsStepSlotInRange(s: WizardState, page: Page)
    requires 1 <= s.currentStep <= |page.steps| && |page.steps| == TotalSteps
    ensures StepSlotInRange(SaveCurrentStepData(s, page).storage)
  {
    SavedStepOfSave(s, page);
  }

  /** A reload after a save, with the prompt accepted, gives back the saved step and data. */
  lemma SaveThenResume(s: WizardState, page: Page)
    requires 1 <= s.currentStep <= |page.steps|
    ensures var saved := SaveCurrentStepData(s, page);
      LoadSavedData(saved.storage, true) == saved
  {
    var saved := SaveCurrentStepData(s, page);
    SavedStepOfSave(s, page);
    assert saved.storage.data == Some(saved.formData);
  }

  /** After `clearSavedData` a reload finds nothing: no prompt, step 1 and empty data,
      whatever the answer to the prompt would have been. */
  lemma ClearThenReload(s: WizardState, resume: bool)
    ensures !AsksToResume(ClearSavedData(s).storage)
    ensures LoadSavedData(ClearSavedData(s).storage, resume) == WizardState(1, map[], Cleared)
  {
  }

  /** A reload after a save, with the prompt refused, starts over with nothing saved. */
  lemma SaveThenDecline(s: WizardState, page: Page)
    requires 2 <= s.currentStep <= |page.steps|
    ensures LoadSavedData(SaveCurrentStepData(s, page).storage, false) == WizardState(1, map[], Cleared)
  {
    SavedStepOfSave(s, page);
  }
}

=== FILE: roster.dfy ===
/** `generateTeamMemberFields`: the team roster rebuilt from the selected team size. Member 1
    is the person filling in the form, so the roster holds members 2..size, each with four
    required, initially empty inputs named `teamMember{i}FirstName/LastName/Email/Phone`. */
module Roster {
  import opened Wrappers
  import opened Chars
  import opened Dom

  /** The four sub-fields of every member, in document order. */
  const Suffixes: seq<string> := ["FirstName", "LastName", "Email", "Phone"]

  const MemberPrefix: string := "teamMember"

  /** `teamMember${i}${suffix}`. */
  function MemberFieldName(i: nat, suffix: string): string {
    MemberPrefix + NatToString(i) + suffix
  }

  /** The input generated for sub-field `k` of member `i`: required, empty, without an id. */
  function MemberInput(i: nat, k: int): Input
    requires 0 <= k < |Suffixes|
  {
    Input("", MemberFieldName(i, Suffixes[k]), true, Field(""))
  }

  /** The four inputs of member `i`, in order. */
  function Member(i: nat): (r: seq<Input>)
    ensures |r| == |Suffixes|
    ensures forall k :: 0 <= k < |Suffixes| ==> r[k] == MemberInput(i, k)
  {
    [MemberInput(i, 0), MemberInput(i, 1), MemberInput(i, 2), MemberInput(i, 3)]
  }

  /** Members `i..n`, four inputs each, in order. */
  function Members(i: nat, n: int): (r: seq<Input>)
    requires i >= 2
    ensures |r| == if n >= i then 4 * (n - i + 1) else 0
    decreases n - i
  {
    if i > n then [] else Member(i) + Members(i + 1, n)
  }

  lemma QuarterStep(k: int)
    requires k >= 4
    ensures (k - 4) / 4 == k / 4 - 1 && (k - 4) % 4 == k % 4
  {
  }

  /** Position `k` of the generated inputs is sub-field `k % 4` of member `i + k / 4`. */
  lemma {:induction false} MembersAt(i: nat, n: int, k: int)
    requires i >= 2 && 0 <= k < |Members(i, n)|
    ensures Members(i, n)[k] == MemberInput(i + k / 4, k % 4)
    decreases n - i
  {
    assert Members(i, n) == Member(i) + Members(i + 1, n);
    if k < 4 {
      assert k / 4 == 0 && k % 4 == k;
      assert Members(i, n)[k] == Member(i)[k];
    } else {
      QuarterStep(k);
      var j, m := i + 1 + (k - 4) / 4, (k - 4) % 4;
      assert j == i + k / 4 && m == k % 4;
      assert Members(i, n)[k] == Members(i + 1, n)[k - 4];
      MembersAt(i + 1, n, k - 4);
    }
  }

  /** The team size as the loop reads it: `parseInt` of the selected value, `NaN` running
      no iteration. */
  function TeamSize(teamSize: string): int {
    match ParseInt(teamSize)
    case Some(n) => n
    case None => 0
  }

  /** The roster `#teamMemberFields` holds after a size is chosen: everything generated
      before is discarded and members 2..size are generated afresh. */
  function GenerateTeamMemberFields(teamSize: string): (r: seq<Input>)
    ensures |r| == if TeamSize(teamSize) >= 2 then 4 * (TeamSize(teamSize) - 1) else 0
    ensures forall k :: 0 <= k < |r| ==>
      && r[k].name == MemberFieldName(2 + k / 4, Suffixes[k % 4])
      && r[k].required && r[k].control == Field("")
  {
    var r := Members(2, TeamSize(teamSize));
    forall k | 0 <= k < |r|
      ensures r[k] == MemberInput(2 + k / 4, k % 4)
    {
      MembersAt(2, TeamSize(teamSize), k);
    }
    r
  }

  /** Every roster field name is a different name: no two sub-fields of the roster share a
      key in the saved form data. */
  lemma MemberFieldNamesDistinct(i: nat, j: nat, k: int, l: int)
    requires 0 <= k < |Suffixes| && 0 <= l < |Suffixes|
    requires MemberFieldName(i, Suffixes[k]) == MemberFieldName(j, Suffixes[l])
    ensures i == j && k == l
  {
    SuffixStartsWithLetter(k);
    SuffixStartsWithLetter(l);
    NumberAndSuffix(NatToString(i), Suffixes[k], NatToString(j), Suffixes[l]);
    NatToStringInjective(i, j);
    SuffixesDistinct(k, l);
  }

  /** Behind the common prefix, the number and the suffix are read back apart. */
  lemma NumberAndSuffix(a: string, x: string, b: string, y: string)
    requires AllDigits(a) && AllDigits(b)
    requires |x| > 0 && !IsDigit(x[0]) && |y| > 0 && !IsDigit(y[0])
    requires MemberPrefix + a + x == MemberPrefix + b + y
    ensures a == b && x == y
  {
    assert MemberPrefix + a + x == MemberPrefix + (a + x);
    assert MemberPrefix + b + y == MemberPrefix + (b + y);
    PrefixCancel(MemberPrefix, a + x, b + y);
    DigitsThenRestSplit(a, x, b, y);
  }

  /** Every suffix starts with a letter, so it cannot extend the member number. */
  lemma SuffixStartsWithLetter(k: int)
    requires 0 <= k < |Suffixes|
    ensures |Suffixes[k]| > 0 && !IsDigit(Suffixes[k][0])
  {
  }

  /** The four suffixes differ (already in their first letters). */
  lemma SuffixesDistinct(k: int, l: int)
    requires 0 <= k < |Suffixes| && 0 <= l < |Suffixes|
    requires Suffixes[k] == Suffixes[l]
    ensures k == l
  {
    assert Suffixes[k][0] == Suffixes[l][0];
  }

  /** The roster's inputs all have different names. */
  lemma RosterNamesDistinct(teamSize: string, p: int, q: int)
    requires var r := GenerateTeamMemberFields(teamSize); 0 <= p < q < |r|
    ensures GenerateTeamMemberFields(teamSize)[p].name != GenerateTeamMemberFields(teamSize)[q].name
  {
    var r := GenerateTeamMemberFields(teamSize);
    assert p == 4 * (p / 4) + p % 4 && q == 4 * (q / 4) + q % 4;
    if r[p].name == r[q].name {
      MemberFieldNamesDistinct(2 + p / 4, 2 + q / 4, p % 4, q % 4);
    }
  }

  /** A roster field name is never the bare member key `teamMember{j}`: after the digits
      it goes on with a letter. */
  lemma MemberFieldNameNotBareKey(i: nat, k: int, j: nat)
    requires 0 <= k < |Suffixes|
    ensures MemberFieldName(i, Suffixes[k]) != MemberPrefix + NatToString(j)
  {
    var a, b, x := NatToString(i), NatToString(j), Suffixes[k];
    SuffixStartsWithLetter(k);
    DigitsThenRestNotDigits(a, x, b);
    assert MemberPrefix + a + x == MemberPrefix + (a + x);
    if MemberPrefix + (a + x) == MemberPrefix + b {
      PrefixCancel(MemberPrefix, a + x, b);
    }
  }

  /** A size written by the select reads back as that number. */
  lemma TeamSizeOfDigit(d: nat)
    requires d < 10
    ensures TeamSize([DigitChar(d)]) == d
  {
    ParseNatToString(d);
  }

  /** The name of a sub-field of a member with a one-digit number. */
  lemma SingleDigitFieldName(d: nat, suffix: string)
    requires d < 10
    ensures MemberFieldName(d, suffix) == MemberPrefix + [DigitChar(d)] + suffix
  {
  }

  /** A team of four has members 2, 3 and 4. */
  lemma RosterOfFour()
    ensures |GenerateTeamMemberFields("4")| == 12
    ensures GenerateTeamMemberFields("4")[0].name == MemberPrefix + "2" + "FirstName"
    ensures GenerateTeamMemberFields("4")[11].name == MemberPrefix + "4" + "Phone"
  {
    TeamSizeOfDigit(4);
    assert [DigitChar(4)] == "4";
    var r := GenerateTeamMemberFields("4");
    SingleDigitFieldName(2, "FirstName");
    SingleDigitFieldName(4, "Phone");
    assert [DigitChar(2)] == "2";
  }

  /** A team of one, or no size selected, has no other members. */
  lemma RosterOfOne()
    ensures GenerateTeamMemberFields("1") == []
    ensures GenerateTeamMemberFields("") == []
  {
    ParseNatToString(1);
  }
}

=== FILE: session.dfy ===
/** A session of the wizard: start-up restores the saved state, then the user presses Next,
    Previous or Submit, each time on the page as it then stands. Whatever the sequence, the
    current step stays in 1..5 and the saved slots stay in step with `formData`, so a reload
    at any moment can resume what was entered. */
module Session {
  import opened Wrappers
  import opened Chars
  import opened Dom
  import opened Persistence
  import opened Wizard
  import opened Submission

  datatype Event = Forward(page: Page) | Back(page: Page) | Send(page: Page, resp: Response)

  /** The data slot holds exactly `formData`, or is missing while `formData` is empty. */
  predicate Synced(s: WizardState) {
    s.storage.data == Some(s.formData) || (s.storage.data == None && s.formData == map[])
  }

  /** What every reachable state satisfies. */
  predicate Good(s: WizardState) {
    InRange(s) && Synced(s) && StepSlotInRange(s.storage)
  }

  predicate AllWellFormed(events: seq<Event>) {
    forall e :: e in events ==> e.page.WellFormed()
  }

  function Apply(s: WizardState, e: Event): (r: WizardState)
    requires InRange(s) && e.page.WellFormed()
    ensures InRange(r)
  {
    match e
    case Forward(page) => NextStep(s, page)
    case Back(page) => PrevStep(s, page)
    case Send(page, resp) => Submit(s, page, resp).state
  }

  function Run(s: WizardState, events: seq<Event>): (r: WizardState)
    requires InRange(s) && AllWellFormed(events)
    ensures InRange(r)
    decreases |events|
  {
    if |events| == 0 then s
    else
      assert events[0] in events;
      Run(Apply(s, events[0]), events[1..])
  }

  /** The state start-up produces from any storage whose step slot the wizard wrote. */
  lemma LoadIsGood(st: Storage, resume: bool)
    requires StepSlotInRange(st)
    ensures Good(LoadSavedData(st, resume))
  {
  }

  /** Each event keeps the invariant. */
  lemma ApplyKeepsGood(s: WizardState, e: Event)
    requires Good(s) && e.page.WellFormed()
    ensures Good(Apply(s, e))
  {
    SaveKeepsStepSlotInRange(s, e.page);
    var saved := SaveCurrentStepData(s, e.page);
    match e
    case Forward(page) =>
    case Back(page) =>
    case Send(page, resp) =>
      var r := Submit(s, page, resp);
      assert r.outcome.Registered? ==> SavedStep(r.state.storage).None?;
  }

  /** Any sequence of events keeps the invariant. */
  lemma {:induction false} RunKeepsGood(s: WizardState, events: seq<Event>)
    requires Good(s) && AllWellFormed(events)
    ensures Good(Run(s, events))
    decreases |events|
  {
    if |events| > 0 {
      assert events[0] in events;
      ApplyKeepsGood(s, events[0]);
      assert AllWellFormed(events[1..]) by {
        assert forall e :: e in events[1..] ==> e in events;
      }
      RunKeepsGood(Apply(s, events[0]), events[1..]);
    }
  }

  /** A reload at any point of a session started from saved storage, with the prompt
      accepted, gives back every entry of `formData` and lands on a step in 1..5. */
  lemma ReloadAfterAnySession(st: Storage, resume: bool, events: seq<Event>)
    requires StepSlotInRange(st) && AllWellFormed(events)
    ensures var s := LoadSavedData(st, resume);
      var r := Run(s, events);
      var back := LoadSavedData(r.storage, true);
      back.formData == r.formData && InRange(back)
  {
    var s := LoadSavedData(st, resume);
    LoadIsGood(st, resume);
    RunKeepsGood(s, events);
  }
}

=== FILE: steps.dfy ===
/** `validateCurrentStep`: every required control of the current step is validated (all of
    them, each failure reported), and step 3 adds the participation rules: a type must be
    chosen, and a team needs a size and a filled-in roster. */
module StepValidation {
  import opened Wrappers
  import opened Chars
  import opened Dom
  import opened Validator

  const ParticipationError: Verdict := Fail("participationTypeError", "Please select your participation type")
  const TeamSizeError: Verdict := Fail("teamSizeError", "Please select team size")

  /** Every required control passes `validateField`. */
  ghost predicate AllRequiredValid(inputs: seq<Input>) {
    forall x :: x in inputs && x.required ==> ValidateField(x).Pass?
  }

  /** The verdicts `forEach` reports for the required controls, in document order: every
      failing required control's verdict, nothing else, and none exactly when every required
      control is valid. */
  function FieldErrors(inputs: seq<Input>): (r: seq<Verdict>)
    ensures forall v :: v in r ==> v.Fail?
    ensures r == [] <==> AllRequiredValid(inputs)
    ensures |r| <= |inputs|
    ensures forall x :: x in inputs && x.required && ValidateField(x).Fail? ==> ValidateField(x) in r
    ensures forall v :: v in r ==> exists x :: x in inputs && x.required && ValidateField(x) == v
  {
    if |inputs| == 0 then []
    else
      var x, tail := inputs[0], inputs[1..];
      var rest := FieldErrors(tail);
      assert forall y :: y in inputs <==> y == x || y in tail;
      if x.required && ValidateField(x).Fail? then
        var r := [ValidateField(x)] + rest;
        assert forall v :: v in r <==> v == ValidateField(x) || v in rest;
        r
      else rest
  }

  /** `input[name="participationType"]:checked`: the first checked radio or checkbox of
      that name in the document. */
  function CheckedParticipation(doc: seq<Input>): (r: Option<Input>)
    ensures r.Some? ==> r.value in doc && r.value.name == "participationType" && IsChecked(r.value.control)
    ensures r.None? ==> forall x :: x in doc && x.name == "participationType" ==> !IsChecked(x.control)
    ensures r.Some? ==> exists i :: (0 <= i < |doc| && doc[i] == r.value
      && forall j :: 0 <= j < i ==> !(doc[j].name == "participationType" && IsChecked(doc[j].control)))
  {
    if |doc| == 0 then None
    else if doc[0].name == "participationType" && IsChecked(doc[0].control) then Some(doc[0])
    else
      var r := CheckedParticipation(doc[1..]);
      if r.Some? then
        var i :| (0 <= i < |doc[1..]| && doc[1..][i] == r.value
          && forall j :: 0 <= j < i ==> !(doc[1..][j].name == "participationType" && IsChecked(doc[1..][j].control)));
        assert doc[i + 1] == r.value;
        assert forall j :: 0 <= j < i + 1 ==> !(doc[j].name == "participationType" && IsChecked(doc[j].control));
        r
      else r
  }

  /** The selected team size as the `teamSize` control reports it. */
  function TeamSizeText(page: Page): string
    requires page.WellFormed()
  {
    ValueOf(ById(Document(page), "teamSize").value.control)
  }

  /** Every required roster input has a non-blank value. */
  ghost predicate RosterFilled(roster: seq<Input>) {
    forall x :: x in roster && x.required ==> !Blank(ValueOf(x.control))
  }

  /** One "This field is required" per blank required roster input, under the input's
      error id, and nothing else. */
  function RosterErrors(roster: seq<Input>): (r: seq<Verdict>)
    ensures forall v :: v in r ==> v.Fail? && v.message == RequiredMessage
    ensures r == [] <==> RosterFilled(roster)
    ensures |r| <= |roster|
    ensures forall x :: x in roster && x.required && Blank(ValueOf(x.control)) ==>
      Fail(ErrorId(x.name), RequiredMessage) in r
    ensures forall v :: v in r ==> exists x :: (x in roster && x.required && Blank(ValueOf(x.control))
      && v == Fail(ErrorId(x.name), RequiredMessage))
  {
    if |roster| == 0 then []
    else
      var x, tail := roster[0], roster[1..];
      var rest := RosterErrors(tail);
      assert forall y :: y in roster <==> y == x || y in tail;
      if x.required && Trim(ValueOf(x.control)) == [] then
        var r := [Fail(ErrorId(x.name), RequiredMessage)] + rest;
        assert forall v :: v in r <==> v == Fail(ErrorId(x.name), RequiredMessage) || v in rest;
        r
      else rest
  }

  /** The participation rules of step 3, as a condition. */
  ghost predicate ParticipationHolds(page: Page)
    requires page.WellFormed()
  {
    var chosen := CheckedParticipation(Document(page));
    && chosen.Some?
    && (ValueOf(chosen.value.control) == "team" ==> TeamSizeText(page) != "" && RosterFilled(page.roster))
  }

  /** The checked participation type is "team". */
  predicate TeamChosen(page: Page) {
    var chosen := CheckedParticipation(Document(page));
    chosen.Some? && ValueOf(chosen.value.control) == "team"
  }

  /** The errors the participation rules report: the missing type, else for a team the
      missing size, else the blank roster inputs. */
  function ParticipationErrors(page: Page): (r: seq<Verdict>)
    requires page.WellFormed()
    ensures r == [] <==> ParticipationHolds(page)
    ensures CheckedParticipation(Document(page)).None? ==>
      r == [Fail("participationTypeError", "Please select your participation type")]
    ensures CheckedParticipation(Document(page)).Some? && TeamChosen(page) && TeamSizeText(page) == "" ==>
      r == [Fail("teamSizeError", "Please select team size")]
    ensures CheckedParticipation(Document(page)).Some? && TeamChosen(page) && TeamSizeText(page) != "" ==>
      r == RosterErrors(page.roster)
    ensures CheckedParticipation(Document(page)).Some? && !TeamChosen(page) ==> r == []
  {
    match CheckedParticipation(Document(page))
    case None => [ParticipationError]
    case Some(p) =>
      if ValueOf(p.control) != "team" then []
      else if TeamSizeText(page) == "" then [TeamSizeError]
      else RosterErrors(page.roster)
  }

  /** Everything a validation pass over step `step` reports. */
  function StepErrors(page: Page, step: int): seq<Verdict>
    requires page.WellFormed() && 1 <= step <= TotalSteps
  {
    FieldErrors(StepInputs(page, step)) + (if step == RosterStep then ParticipationErrors(page) else [])
  }

  /** `validateCurrentStep`: the step passes exactly when nothing is reported, that is when
      every required control of the step is valid and, on step 3, the participation rules
      hold. */
  function ValidateCurrentStep(page: Page, step: int): (ok: bool)
    requires page.WellFormed() && 1 <= step <= TotalSteps
    ensures ok <==> AllRequiredValid(StepInputs(page, step)) && (step == RosterStep ==> ParticipationHolds(page))
  {
    StepErrors(page, step) == []
  }

  /** Step 3 fails when no participation type is chosen. */
  lemma Step3NeedsParticipation(page: Page)
    requires page.WellFormed()
    requires CheckedParticipation(Document(page)).None?
    ensures !ValidateCurrentStep(page, RosterStep)
  {
  }

  /** A team entry fails without a team size, or with any blank required roster input. */
  lemma Step3TeamNeedsSizeAndRoster(page: Page, x: Input)
    requires page.WellFormed()
    requires CheckedParticipation(Document(page)).Some?
    requires ValueOf(CheckedParticipation(Document(page)).value.control) == "team"
    requires TeamSizeText(page) == "" || (x in page.roster && x.required && Blank(ValueOf(x.control)))
    ensures !ValidateCurrentStep(page, RosterStep)
  {
  }

  /** A required control that fails its own rule blocks its step, whatever else holds. */
  lemma InvalidFieldBlocksStep(page: Page, step: int, x: Input)
    requires page.WellFormed() && 1 <= step <= TotalSteps
    requires x in StepInputs(page, step) && x.required && ValidateField(x).Fail?
    ensures !ValidateCurrentStep(page, step)
  {
  }

  /** A blank required control blocks its step with "This field is required". */
  lemma MissingFieldBlocksStep(page: Page, step: int, x: Input)
    requires page.WellFormed() && 1 <= step <= TotalSteps
    requires x in StepInputs(page, step) && MissingRequired(x)
    ensures !ValidateCurrentStep(page, step)
    ensures ValidateField(x) in StepErrors(page, step)
    ensures ValidateField(x).message == RequiredMessage
  {
  }

  /** Solo participation needs nothing beyond the step's required controls. */
  lemma Step3Solo(page: Page)
    requires page.WellFormed()
    requires CheckedParticipation(Document(page)).Some?
    requires ValueOf(CheckedParticipation(Document(page)).value.control) != "team"
    requires AllRequiredValid(StepInputs(page, RosterStep))
    ensures ValidateCurrentStep(page, RosterStep)
  {
  }
}

=== FILE: submission.dfy ===
/** The submit handler: the current step is validated and saved, a multipart payload is
    built from `formData` and the page, and the server's answer is turned into either a
    registration (the saved data is cleared) or an alert (the saved data stays). The
    request itself is abstracted as the `Response` it produces. */
module Submission {
  import opened Wrappers
  import opened Chars
  import opened Dom
  import opened Persistence
  import opened StepValidation
  import opened Roster
  import opened Wizard

  /* ---------------------------------------------------------------- payload */

  /** The multipart body: one text part per non-null `formData` entry, the parts of the
      member loop in order, one file part per PDF slot with a file, and the agreement. */
  datatype Payload = Payload(
    fields: map<string, string>,
    members: seq<(string, string)>,
    files: seq<(string, FileInfo)>,
    agreement: string)

  /** `String(v)`, the text `FormData.append` and `parseInt` turn an entry into: a flag is
      "true" or "false" and the file metadata object is "[object Object]". */
  function Stringify(v: Value): (r: string)
    ensures v.Text? ==> r == v.s
    ensures v.Flag? ==> r == (if v.b then "true" else "false")
    ensures v.File? ==> r == "[object Object]"
    ensures v.Null? ==> r == "null"
  {
    match v
    case Text(s) => s
    case Flag(b) => if b then "true" else "false"
    case File(_) => "[object Object]"
    case Null => "null"
  }

  /** JavaScript truthiness of an entry. */
  predicate Truthy(v: Value) {
    match v
    case Text(s) => s != ""
    case Flag(b) => b
    case File(_) => true
    case Null => false
  }

  /** The first section: every entry except the null ones, as text. */
  function FieldParts(fd: FormData): (r: map<string, string>)
    ensures r.Keys == set k | k in fd && fd[k] != Null
    ensures forall k :: k in r ==> r[k] == Stringify(fd[k])
  {
    map k | k in fd && fd[k] != Null :: Stringify(fd[k])
  }

  /** The bound of the member loop, `parseInt(formData.teamSize)`, when the loop runs at
      all: only for a team with a truthy size; `NaN` (here `None`) runs no iteration. */
  function MemberBound(fd: FormData): (n: Option<int>)
    ensures n.Some? ==> "participationType" in fd && fd["participationType"] == Text("team")
    ensures n.Some? ==> "teamSize" in fd && Truthy(fd["teamSize"])
    ensures ("participationType" in fd && fd["participationType"] == Text("team")
             && "teamSize" in fd && Truthy(fd["teamSize"])) ==> n == ParseInt(Stringify(fd["teamSize"]))
  {
    if "participationType" in fd && fd["participationType"] == Text("team")
       && "teamSize" in fd && Truthy(fd["teamSize"])
    then ParseInt(Stringify(fd["teamSize"]))
    else None
  }

  /** The key the loop looks member `i` up under: `teamMember{i}`. */
  function MemberKey(i: nat): string {
    MemberPrefix + NatToString(i)
  }

  /** The parts one truthy `formData["teamMember{i}"]` contributes: one per own key, named
      `teamMember{i}` plus the key with its first letter upper-cased. A string's keys are
      its indices (digits, which upper-casing leaves alone), the file metadata's keys are
      `name`, `size` and `type`, and `true` has none. */
  function Expand(i: nat, v: Value): (r: seq<(string, string)>)
    ensures !Truthy(v) ==> r == []
    ensures v.Text? ==> |r| == |v.s| && (forall k :: 0 <= k < |r| ==> r[k] == (MemberKey(i) + NatToString(k), [v.s[k]]))
    ensures v.File? ==> r == [(MemberKey(i) + "Name", v.meta.name),
                              (MemberKey(i) + "Size", NatToString(v.meta.size)),
                              (MemberKey(i) + "Type", v.meta.mime)]
    ensures v.Flag? ==> r == []
  {
    match v
    case Text(s) => seq(|s|, k requires 0 <= k < |s| => (MemberKey(i) + NatToString(k), [s[k]]))
    case File(m) => [(MemberKey(i) + "Name", m.name), (MemberKey(i) + "Size", NatToString(m.size)),
                     (MemberKey(i) + "Type", m.mime)]
    case _ => []
  }

  /** The values of the parts, joined. */
  function Spell(parts: seq<(string, string)>): string {
    if |parts| == 0 then [] else parts[0].1 + Spell(parts[1..])
  }

  lemma {:induction false} SpellChars(parts: seq<(string, string)>, s: string)
    requires |parts| == |s| && forall k :: 0 <= k < |s| ==> parts[k].1 == [s[k]]
    ensures Spell(parts) == s
  {
    if |s| > 0 {
      SpellChars(parts[1..], s[1..]);
      assert s == [s[0]] + s[1..];
    }
  }

  /** The parts a string entry expands to spell the string out again, one character each. */
  lemma ExpandSpellsText(i: nat, s: string)
    ensures Spell(Expand(i, Text(s))) == s
    ensures |Expand(i, Text(s))| == |s|
  {
    SpellChars(Expand(i, Text(s)), s);
  }

  /** The loop `for (i = lo; i < n; i++)` over the entries `teamMember{i}`. */
  function MemberParts(fd: FormData, lo: nat, n: int): seq<(string, string)>
    decreases n - lo
  {
    if lo >= n then []
    else
      (if MemberKey(lo) in fd then Expand(lo, fd[MemberKey(lo)]) else [])
      + MemberParts(fd, lo + 1, n)
  }

  /** The member section of the payload. */
  function MemberSection(fd: FormData): seq<(string, string)> {
    match MemberBound(fd)
    case None => []
    case Some(n) => MemberParts(fd, 1, n)
  }

  /** `fileInput && fileInput.files.length > 0`: a control with that id holds a file. */
  predicate Selected(doc: seq<Input>, id: string) {
    ById(doc, id).Some? && |Files(ById(doc, id).value.control)| > 0
  }

  predicate Distinct(ids: seq<string>) {
    forall a, b :: 0 <= a < b < |ids| ==> ids[a] != ids[b]
  }

  lemma DistinctTail(ids: seq<string>)
    requires Distinct(ids) && |ids| > 0
    ensures Distinct(ids[1..])
  {
    forall a, b | 0 <= a < b < |ids[1..]|
      ensures ids[1..][a] != ids[1..][b]
    {
      assert ids[1..][a] == ids[a + 1] && ids[1..][b] == ids[b + 1];
    }
  }

  /** The ids, in order, whose control holds a file. */
  ghost function SelectedIds(doc: seq<Input>, ids: seq<string>): seq<string> {
    if |ids| == 0 then [] else (if Selected(doc, ids[0]) then [ids[0]] else []) + SelectedIds(doc, ids[1..])
  }

  /** The file section: for each PDF id in order, the first file of the control with that
      id, when it exists and has a file. The parts' ids are the selected ids in their
      order. */
  function FileParts(doc: seq<Input>, ids: seq<string>): (r: seq<(string, FileInfo)>)
    ensures |r| <= |ids|
    ensures forall p :: p in r ==> p.0 in ids && Selected(doc, p.0) && p.1 == Files(ById(doc, p.0).value.control)[0]
    ensures forall id :: id in ids && Selected(doc, id) ==> exists p :: p in r && p.0 == id
  {
    if |ids| == 0 then []
    else
      var rest := FileParts(doc, ids[1..]);
      assert forall id :: id in ids ==> id == ids[0] || id in ids[1..];
      if Selected(doc, ids[0]) then
        var r := [(ids[0], Files(ById(doc, ids[0]).value.control)[0])] + rest;
        assert forall p :: p in rest ==> p in r;
        assert r[0] in r;
        r
      else rest
  }

  /** The selected ids of distinct ids are distinct and among the ids. */
  lemma {:induction false} SelectedIdsDistinct(doc: seq<Input>, ids: seq<string>)
    requires Distinct(ids)
    ensures Distinct(SelectedIds(doc, ids))
    ensures forall x :: x in SelectedIds(doc, ids) ==> x in ids
  {
    if |ids| > 0 {
      DistinctTail(ids);
      SelectedIdsDistinct(doc, ids[1..]);
      var t := SelectedIds(doc, ids[1..]);
      var head := if Selected(doc, ids[0]) then [ids[0]] else [];
      var s := head + t;
      assert SelectedIds(doc, ids) == s;
      assert ids[0] !in t by {
        assert ids[0] !in ids[1..];
      }
      forall a, b | 0 <= a < b < |s|
        ensures s[a] != s[b]
      {
        assert s[b] == t[b - |head|];
        if a >= |head| {
          assert s[a] == t[a - |head|];
        }
      }
      assert forall x :: x in s ==> x == ids[0] || x in t;
    }
  }

  /** The parts' ids are the selected ids, in order. */
  lemma {:induction false} FilePartsFollowIds(doc: seq<Input>, ids: seq<string>)
    ensures var r := FileParts(doc, ids);
      |r| == |SelectedIds(doc, ids)| && forall k :: 0 <= k < |r| ==> r[k].0 == SelectedIds(doc, ids)[k]
  {
    if |ids| > 0 {
      FilePartsFollowIds(doc, ids[1..]);
      var rest := FileParts(doc, ids[1..]);
      var t := SelectedIds(doc, ids[1..]);
      if Selected(doc, ids[0]) {
        var h := (ids[0], Files(ById(doc, ids[0]).value.control)[0]);
        assert FileParts(doc, ids) == [h] + rest;
        assert SelectedIds(doc, ids) == [ids[0]] + t;
        HeadThenFollow(h, rest, t);
      } else {
        assert FileParts(doc, ids) == rest;
        assert SelectedIds(doc, ids) == [] + t;
      }
    }
  }

  lemma HeadThenFollow(h: (string, FileInfo), rest: seq<(string, FileInfo)>, t: seq<string>)
    requires |rest| == |t| && forall k :: 0 <= k < |rest| ==> rest[k].0 == t[k]
    ensures var r, u := [h] + rest, [h.0] + t;
      |r| == |u| && forall k :: 0 <= k < |r| ==> r[k].0 == u[k]
  {
    var r, u := [h] + rest, [h.0] + t;
    forall k | 1 <= k < |r|
      ensures r[k].0 == u[k]
    {
      assert r[k] == rest[k - 1] && u[k] == t[k - 1];
    }
  }

  /** Distinct ids give parts with distinct ids: no slot is sent twice. */
  lemma FilePartsDistinct(doc: seq<Input>, ids: seq<string>)
    requires Distinct(ids)
    ensures var r := FileParts(doc, ids);
      forall a, b :: 0 <= a < b < |r| ==> r[a].0 != r[b].0
  {
    SelectedIdsDistinct(doc, ids);
    FilePartsFollowIds(doc, ids);
  }

  lemma PdfIdsDistinct()
    ensures Distinct(PdfIds)
  {
    assert PdfIds[0][3] == '1' && PdfIds[1][3] == '2' && PdfIds[2][3] == '3';
  }

  /** The whole payload for the data in `fd` and the page as it stands: every non-null entry
      as text (a string entry verbatim, a flag as "true" or "false", the saved file metadata
      as "[object Object]" beside the real file part of the same name), the member loop's parts, one part per PDF slot that
      holds a file in slot order, and the agreement checkbox's state as "true" or "false". */
  function BuildPayload(fd: FormData, page: Page): (p: Payload)
    requires page.WellFormed()
    ensures forall k :: k in p.fields <==> k in fd && fd[k] != Null
    ensures forall k :: k in p.fields && fd[k].Text? ==> p.fields[k] == fd[k].s
    ensures forall k :: k in p.fields && fd[k].Flag? ==> p.fields[k] == (if fd[k].b then "true" else "false")
    ensures forall k :: k in p.fields && fd[k].File? ==> p.fields[k] == "[object Object]"
    ensures p.members == MemberSection(fd)
    ensures forall q :: q in p.files ==>
      (q.0 in PdfIds && Selected(Document(page), q.0) && q.1 == Files(ById(Document(page), q.0).value.control)[0])
    ensures forall id :: id in PdfIds && Selected(Document(page), id) ==> exists q :: q in p.files && q.0 == id
    ensures |p.files| == |SelectedIds(Document(page), PdfIds)|
    ensures forall k :: 0 <= k < |p.files| ==> p.files[k].0 == SelectedIds(Document(page), PdfIds)[k]
    ensures forall a, b :: 0 <= a < b < |p.files| ==> p.files[a].0 != p.files[b].0
    ensures p.agreement == "true" || p.agreement == "false"
    ensures p.agreement == "true" <==> IsChecked(ById(Document(page), "agreement").value.control)
  {
    var doc := Document(page);
    var files := FileParts(doc, PdfIds);
    PdfIdsDistinct();
    FilePartsDistinct(doc, PdfIds);
    FilePartsFollowIds(doc, PdfIds);
    var fields := FieldParts(fd);
    assert forall k :: k in fields <==> k in fd && fd[k] != Null;
    Payload(fields, MemberSection(fd), files, if IsChecked(ById(doc, "agreement").value.control) then "true" else "false")
  }

  /** Null entries of a stored map are left out of the payload, and nothing else is. */
  lemma NullEntriesSkipped(fd: FormData, page: Page, k: string)
    requires page.WellFormed() && k in fd
    ensures k in BuildPayload(fd, page).fields <==> fd[k] != Null
  {
  }

  /** Data made only of strings comes back from the first section unchanged. */
  lemma TextFieldsRoundTrip(fd: FormData, page: Page)
    requires page.WellFormed() && forall k :: k in fd ==> fd[k].Text?
    ensures var f := BuildPayload(fd, page).fields;
      (map k | k in f :: Text(f[k])) == fd
  {
    var f := BuildPayload(fd, page).fields;
    var back := map k | k in f :: Text(f[k]);
    assert back.Keys == fd.Keys;
    assert forall k :: k in fd ==> back[k] == fd[k];
  }

  /** The member loop only reads `teamMember{i}` entries: without them it adds nothing. */
  lemma {:induction false} MemberPartsWithoutKeys(fd: FormData, lo: nat, n: int)
    requires forall i: nat :: lo <= i < n ==> MemberKey(i) !in fd
    ensures MemberParts(fd, lo, n) == []
    decreases n - lo
  {
    if lo < n {
      MemberPartsWithoutKeys(fd, lo + 1, n);
    }
  }

  /** The names of the inputs of a generated roster. */
  function RosterNames(teamSize: string): set<string> {
    set x | x in GenerateTeamMemberFields(teamSize) :: x.name
  }

  /** No generated roster input is named like a key the member loop reads. */
  lemma MemberKeyNotInRoster(teamSize: string, i: nat)
    ensures MemberKey(i) !in RosterNames(teamSize)
  {
    var r := GenerateTeamMemberFields(teamSize);
    forall p | 0 <= p < |r|
      ensures r[p].name != MemberKey(i)
    {
      MemberFieldNameNotBareKey(2 + p / 4, p % 4, i);
    }
  }

  /** The roster's inputs are saved under `teamMember{i}FirstName` and the like, never under
      the `teamMember{i}` keys the member loop reads, so data made of step controls and a
      generated roster sends no member section at all: the roster reaches the server only
      through the flat first section. */
  lemma RosterNeverReachesMemberLoop(fd: FormData, teamSize: string)
    requires forall k :: k in fd && StartsWith(k, MemberPrefix) ==> k in RosterNames(teamSize)
    ensures MemberSection(fd) == []
  {
    forall i: nat
      ensures MemberKey(i) !in fd
    {
      assert StartsWith(MemberKey(i), MemberPrefix) by {
        assert MemberKey(i)[..|MemberPrefix|] == MemberPrefix;
      }
      MemberKeyNotInRoster(teamSize, i);
    }
    if MemberBound(fd).Some? {
      MemberPartsWithoutKeys(fd, 1, MemberBound(fd).value);
    }
  }

  /** Were an entry `teamMember{i}` a string, the loop would send it character by character:
      one part per character, each holding that one character, named `teamMember` followed
      by digits only (the member number, then the character's index), and together spelling
      the string. `"Al"` for member 2 becomes `teamMember20 = "A"` and `teamMember21 = "l"`. */
  lemma StringMemberSentPerCharacter(i: nat, s: string)
    ensures var r := Expand(i, Text(s));
      && |r| == |s| && Spell(r) == s
      && (forall k :: 0 <= k < |r| ==> r[k].1 == [s[k]])
      && (forall k :: 0 <= k < |r| ==>
            (|MemberPrefix| <= |r[k].0| && r[k].0[..|MemberPrefix|] == MemberPrefix
             && AllDigits(r[k].0[|MemberPrefix|..])))
    ensures Expand(2, Text("Al")) == [("teamMember20", "A"), ("teamMember21", "l")]
  {
    var r := Expand(i, Text(s));
    ExpandSpellsText(i, s);
    forall k | 0 <= k < |r|
      ensures |MemberPrefix| <= |r[k].0| && r[k].0[..|MemberPrefix|] == MemberPrefix
      ensures AllDigits(r[k].0[|MemberPrefix|..])
    {
      DigitSuffix(NatToString(i), NatToString(k), r[k].0);
    }
    var e := Expand(2, Text("Al"));
    assert NatToString(2) == "2" && NatToString(0) == "0" && NatToString(1) == "1";
    assert MemberKey(2) == "teamMember2";
    assert e[0] == ("teamMember2" + "0", "A");
    assert e[1] == ("teamMember2" + "1", "l");
    assert "teamMember2" + "0" == "teamMember20" && "teamMember2" + "1" == "teamMember21";
    assert e == [e[0], e[1]];
  }

  lemma DigitSuffix(a: string, b: string, name: string)
    requires AllDigits(a) && AllDigits(b) && name == MemberPrefix + a + b
    ensures |MemberPrefix| <= |name| && name[..|MemberPrefix|] == MemberPrefix
    ensures AllDigits(name[|MemberPrefix|..])
  {
    assert name[|MemberPrefix|..] == a + b;
  }

  /* ---------------------------------------------------------------- response */

  /** What `response.json()` yields: the reply object, or the error it rejects with. */
  datatype Reply = Reply(success: bool, registrationId: Option<string>, error: Option<string>)
  datatype Body = Json(reply: Reply) | Malformed(name: string, message: string)

  /** What `fetch` yields: a rejection (the browser's error name and message), or a
      response with its `ok` flag, status, `content-type` header and body. */
  datatype Response =
    | Unreachable(name: string, message: string)
    | Received(ok: bool, status: nat, contentType: Option<string>, body: Body)

  /** An error thrown inside the `try`; errors thrown with `new Error` are named "Error". */
  datatype Thrown = Thrown(name: string, message: string)

  /** How the `try` block ends: the success branch with the registration id, or a throw. */
  datatype Settlement = Accepted(id: Option<string>) | Raised(err: Thrown)

  const JsonType: string := "application/json"
  const InvalidFormat: string := "Server returned invalid response format"
  const DefaultFailure: string := "Registration failed"

  function HttpError(status: nat): string {
    "HTTP error! status: " + NatToString(status)
  }

  /** The checks of the `try` block in order: HTTP status, content type, JSON body, the
      `success` flag; a falsy `error` falls back to "Registration failed". */
  function Settle(resp: Response): (r: Settlement)
    ensures r.Accepted? <==> (resp.Received? && resp.ok && resp.contentType.Some?
      && Contains(resp.contentType.value, JsonType) && resp.body.Json? && resp.body.reply.success)
    ensures resp.Received? && !resp.ok ==> r == Raised(Thrown("Error", HttpError(resp.status)))
    ensures r.Raised? && r.err.name != "Error" ==> resp.Unreachable? || (resp.Received? && resp.body.Malformed?)
    ensures r.Accepted? ==> resp.Received? && resp.body.Json? && r.id == resp.body.reply.registrationId
  {
    match resp
    case Unreachable(n, m) => Raised(Thrown(n, m))
    case Received(ok, status, ct, body) =>
      if !ok then Raised(Thrown("Error", HttpError(status)))
      else if ct.None? || !Contains(ct.value, JsonType) then Raised(Thrown("Error", InvalidFormat))
      else match body
        case Malformed(n, m) => Raised(Thrown(n, m))
        case Json(reply) =>
          if reply.success then Accepted(reply.registrationId)
          else if reply.error.Some? && reply.error.value != "" then Raised(Thrown("Error", reply.error.value))
          else Raised(Thrown("Error", DefaultFailure))
  }

  const AlertPrefix: string := "Registration failed: "
  const ConnectionAdvice: string := "Cannot connect to server. Please check if the server is running and try again."

  /** The `catch` block's alert text: a `TypeError` mentioning "fetch" is a connection
      problem, a message mentioning "HTTP error" a server error, anything else is shown
      as is. */
  function ErrorMessage(e: Thrown): (m: string)
    ensures StartsWith(m, AlertPrefix)
    ensures e.name == "TypeError" && Contains(e.message, "fetch") ==> m == AlertPrefix + ConnectionAdvice
    ensures !(e.name == "TypeError" && Contains(e.message, "fetch")) && !Contains(e.message, "HTTP error") ==>
      m[|AlertPrefix|..] == e.message
    ensures !(e.name == "TypeError" && Contains(e.message, "fetch")) && Contains(e.message, "HTTP error") ==>
      m == AlertPrefix + ("Server error (" + e.message + "). Please try again later.")
  {
    var detail :=
      if e.name == "TypeError" && Contains(e.message, "fetch") then ConnectionAdvice
      else if Contains(e.message, "HTTP error") then "Server error (" + e.message + "). Please try again later."
      else e.message;
    assert (AlertPrefix + detail)[|AlertPrefix|..] == detail;
    AlertPrefix + detail
  }

  /* ---------------------------------------------------------------- the handler */

  /** What the user sees: nothing (validation failed), the success screen, or an alert. */
  datatype Outcome = Blocked | Registered(id: Option<string>) | Alerted(message: string)

  datatype SubmitResult = SubmitResult(state: WizardState, sent: Option<Payload>, outcome: Outcome)

  /** The submit handler on the current step, with `resp` the result of the request. The
      step shown is not checked: whatever step is current is validated and saved. */
  function Submit(s: WizardState, page: Page, resp: Response): (r: SubmitResult)
    requires page.WellFormed() && InRange(s)
    ensures r.outcome.Blocked? <==> !ValidateCurrentStep(page, s.currentStep)
    ensures r.outcome.Blocked? ==> r.state == s && r.sent.None?
    ensures !r.outcome.Blocked? ==> r.sent == Some(BuildPayload(SaveCurrentStepData(s, page).formData, page))
    ensures r.outcome.Registered? <==> (!r.outcome.Blocked? && Settle(resp).Accepted?)
    ensures r.outcome.Registered? ==> r.state == WizardState(s.currentStep, map[], Cleared)
    ensures r.outcome.Registered? ==> r.outcome.id == Settle(resp).id
    ensures r.outcome.Alerted? ==> r.state == SaveCurrentStepData(s, page) && StartsWith(r.outcome.message, AlertPrefix)
    ensures r.outcome.Alerted? <==> !r.outcome.Blocked? && Settle(resp).Raised?
    ensures r.outcome.Alerted? ==> r.outcome.message == ErrorMessage(Settle(resp).err)
    ensures r.state.currentStep == s.currentStep
  {
    if !ValidateCurrentStep(page, s.currentStep) then SubmitResult(s, None, Blocked)
    else
      var saved := SaveCurrentStepData(s, page);
      var payload := BuildPayload(saved.formData, page);
      match Settle(resp)
      case Accepted(id) => SubmitResult(ClearSavedData(saved), Some(payload), Registered(id))
      case Raised(e) => SubmitResult(saved, Some(payload), Alerted(ErrorMessage(e)))
  }

  /** A failed submission keeps the data: it stays saved under the current step, so a
      reload offers to resume it. */
  lemma FailureKeepsSavedData(s: WizardState, page: Page, resp: Response)
    requires page.WellFormed() && InRange(s)
    requires Submit(s, page, resp).outcome.Alerted?
    ensures var r := Submit(s, page, resp);
      r.state.storage == Storage(Some(r.state.formData), Some(NatToString(s.currentStep)))
      && LoadSavedData(r.state.storage, true) == r.state
  {
    SaveThenResume(s, page);
  }

  /** An HTTP error status is reported as a server error quoting the status. */
  lemma HttpStatusAlert(status: nat, ct: Option<string>, body: Body)
    ensures Settle(Received(false, status, ct, body)).Raised?
    ensures ErrorMessage(Settle(Received(false, status, ct, body)).err) ==
      AlertPrefix + ("Server error (" + HttpError(status) + "). Please try again later.")
  {
    var e := Thrown("Error", HttpError(status));
    assert Settle(Received(false, status, ct, body)) == Raised(e);
    var tail := "! status: " + NatToString(status);
    assert [] + "HTTP error" + tail == HttpError(status);
    ContainsInfix([], "HTTP error", tail);
    assert e.name != "TypeError" by { assert |e.name| != |"TypeError"|; }
  }

  /** The browser's "Failed to fetch" rejection is reported as a connection problem. */
  lemma NetworkFailureAlert()
    ensures Settle(Unreachable("TypeError", "Failed to fetch")) == Raised(Thrown("TypeError", "Failed to fetch"))
    ensures ErrorMessage(Thrown("TypeError", "Failed to fetch")) == AlertPrefix + ConnectionAdvice
  {
    assert "Failed to " + "fetch" + [] == "Failed to fetch";
    ContainsInfix("Failed to ", "fetch", []);
  }

  /** A response without a JSON content type, even with an ok status, is never a
      registration, whatever its body. */
  lemma NonJsonIsInvalidFormat(status: nat, ct: Option<string>, body: Body)
    requires ct.None? || !Contains(ct.value, JsonType)
    ensures Settle(Received(true, status, ct, body)) == Raised(Thrown("Error", InvalidFormat))
  {
  }

  /** An HTML error page served with status 200 is one such response. */
  lemma HtmlPageIsInvalidFormat(status: nat, body: Body)
    ensures Settle(Received(true, status, Some("text/html"), body)) == Raised(Thrown("Error", InvalidFormat))
  {
    MissingFirstChar("text/html", JsonType);
    NonJsonIsInvalidFormat(status, Some("text/html"), body);
  }

  /** A refusal from the server is thrown with its own error text, or the default. */
  lemma RefusalIsThrown(status: nat, ct: string, reply: Reply)
    requires Contains(ct, JsonType) && !reply.success
    ensures Settle(Received(true, status, Some(ct), Json(reply))) ==
      Raised(Thrown("Error", if reply.error.Some? && reply.error.value != "" then reply.error.value else DefaultFailure))
  {
  }

  /** An error that is neither a failed fetch nor an HTTP error is shown as is. */
  lemma PlainMessageShownAsIs(e: Thrown)
    requires !(e.name == "TypeError" && Contains(e.message, "fetch")) && !Contains(e.message, "HTTP error")
    ensures ErrorMessage(e) == AlertPrefix + e.message
  {
    var m := ErrorMessage(e);
    assert m == AlertPrefix + m[|AlertPrefix|..];
  }

  /** The server's own error text is shown after the prefix. */
  lemma RefusalAlert()
    ensures ErrorMessage(Thrown("Error", "Email taken")) == AlertPrefix + "Email taken"
  {
    MissingFirstChar("Email taken", "HTTP error");
    PlainMessageShownAsIs(Thrown("Error", "Email taken"));
  }

  /** Without an error text the alert reads "Registration failed: Registration failed". */
  lemma DefaultRefusalAlert()
    ensures ErrorMessage(Thrown("Error", DefaultFailure)) == AlertPrefix + DefaultFailure
  {
    MissingFirstChar(DefaultFailure, "HTTP error");
    PlainMessageShownAsIs(Thrown("Error", DefaultFailure));
  }
}

=== FILE: summary.dfy ===
/** `getYearText`: the label the confirmation summary shows for the `year` entry. */
module Summary {
  import opened Wrappers
  import opened Persistence

  /** The option values of the year select, and their labels in the same order. */
  const YearCodes: seq<string> := ["1", "2", "3", "4", "postgrad"]
  const YearLabels: seq<string> := ["1st Year", "2nd Year", "3rd Year", "4th Year", "Post Graduate"]

  /** The label for a stored `year` entry: the switch compares strictly, so only one of
      the five option strings has a label, and anything else (a missing entry included)
      shows as the empty string. */
  function YearText(year: Option<Value>): (r: string)
    ensures r != "" <==> year.Some? && year.value.Text? && year.value.s in YearCodes
    ensures r != "" ==> r in YearLabels
  {
    match year
    case Some(Text(s)) =>
      if s == "1" then "1st Year"
      else if s == "2" then "2nd Year"
      else if s == "3" then "3rd Year"
      else if s == "4" then "4th Year"
      else if s == "postgrad" then "Post Graduate"
      else ""
    case _ => ""
  }

  /** Each option value gets the label in the same position. */
  lemma YearTextTable(i: int)
    requires 0 <= i < |YearCodes|
    ensures YearText(Some(Text(YearCodes[i]))) == YearLabels[i]
  {
  }

  /** Different years never share a label, so the label gives back the year. */
  lemma YearTextInjective(a: Option<Value>, b: Option<Value>)
    requires YearText(a) != "" && YearText(a) == YearText(b)
    ensures a == b
  {
  }

  /** The year as a number is not recognised: a value must be the option string. */
  lemma YearTextIsStrict()
    ensures YearText(Some(Flag(true))) == ""
    ensures YearText(Some(Text("5"))) == ""
    ensures YearText(None) == ""
  {
  }
}

=== FILE: validator.dfy ===
/** The per-field rules of `validateField`: the required check first, then one rule chosen
    by the field's exact name. The two regular expressions are written out as scanners over
    the characters, each with the regex's language as an independent reference. */
module Validator {
  import opened Wrappers
  import opened Chars
  import opened Dom

  const RequiredMessage: string := "This field is required"
  const NameMessage: string := "Name must be at least 2 characters long"
  const EmailMessage: string := "Please enter a valid email address"
  const PhoneMessage: string := "Please enter a valid phone number"
  const PdfTypeMessage: string := "Please upload a PDF file"
  const PdfSizeMessage: string := "File size must be less than 10MB"

  const PdfMime: string := "application/pdf"

  /** 10 MiB: the largest accepted upload, in bytes. */
  const MaxPdfBytes: nat := 10 * 1024 * 1024

  /** The outcome of validating one field: it passes, or it fails with the id of the error
      element that shows `message`. */
  datatype Verdict = Pass | Fail(errorId: string, message: string)

  /** The error element of a field: `${name}Error`. */
  function ErrorId(name: string): string {
    name + "Error"
  }

  /* ---------------------------------------------------------------- email */

  /** The class `[^\s@]`. */
  predicate Plain(c: char) {
    !IsSpace(c) && c != '@'
  }

  predicate AllPlain(s: string) {
    forall i :: 0 <= i < |s| ==> Plain(s[i])
  }

  /** The language of `/^[^\s@]+@[^\s@]+\.[^\s@]+$/`: three non-empty runs of `[^\s@]`,
      the first two separated by '@' and the last two by '.'. */
  ghost predicate EmailPattern(s: string) {
    exists a, b :: 0 < a && a + 1 < b && b + 1 < |s| && s[a] == '@' && s[b] == '.'
      && AllPlain(s[..a]) && AllPlain(s[a + 1..b]) && AllPlain(s[b + 1..])
  }

  /** The position of the first `c` in `s`. */
  function IndexOf(s: string, c: char): (r: Option<nat>)
    ensures r.Some? ==> r.value < |s| && s[r.value] == c && c !in s[..r.value]
    ensures r.None? ==> c !in s
  {
    if |s| == 0 then None
    else if s[0] == c then Some(0)
    else
      match IndexOf(s[1..], c)
      case None => None
      case Some(k) =>
        assert s[..k + 1] == [s[0]] + s[1..][..k];
        Some(k + 1)
  }

  /** A run of `[^\s@]`, checked one character at a time. */
  predicate PlainRun(s: string) {
    |s| == 0 || (Plain(s[0]) && PlainRun(s[1..]))
  }

  /** The part after '@': plain characters with a '.' that is neither first nor last. */
  predicate IsValidDomain(d: string) {
    PlainRun(d) && |d| >= 3 && '.' in d[1..|d| - 1]
  }

  /** The email check as a scan: a non-empty plain local part up to the first '@', then a
      valid domain. */
  predicate IsValidEmail(s: string) {
    match IndexOf(s, '@')
    case None => false
    case Some(a) => a > 0 && PlainRun(s[..a]) && IsValidDomain(s[a + 1..])
  }

  lemma {:induction false} PlainRunIffAllPlain(s: string)
    ensures PlainRun(s) <==> AllPlain(s)
  {
    if |s| > 0 {
      PlainRunIffAllPlain(s[1..]);
    }
  }

  /** The scanner accepts exactly the regex's language. */
  lemma EmailScanMatchesPattern(s: string)
    ensures IsValidEmail(s) <==> EmailPattern(s)
  {
    if IsValidEmail(s) {
      EmailScanSound(s);
    }
    if EmailPattern(s) {
      EmailScanComplete(s);
    }
  }

  lemma EmailScanSound(s: string)
    requires IsValidEmail(s)
    ensures EmailPattern(s)
  {
    var a := IndexOf(s, '@').value;
    var d := s[a + 1..];
    assert a > 0 && s[a] == '@' && IsValidDomain(d);
    PlainRunIffAllPlain(s[..a]);
    PlainRunIffAllPlain(d);
    var j :| 0 <= j < |d[1..|d| - 1]| && d[1..|d| - 1][j] == '.';
    var b := a + 2 + j;
    assert s[b] == d[j + 1] == '.';
    AllPlainSlice(d, 0, j + 1);
    AllPlainSlice(d, j + 2, |d|);
    assert s[a + 1..b] == d[0..j + 1];
    assert s[b + 1..] == d[j + 2..|d|];
    assert 0 < a && a + 1 < b && b + 1 < |s|;
  }

  lemma AllPlainSlice(s: string, i: int, j: int)
    requires AllPlain(s) && 0 <= i <= j <= |s|
    ensures AllPlain(s[i..j])
  {
    assert forall k :: 0 <= k < j - i ==> s[i..j][k] == s[i + k];
  }

  lemma EmailScanComplete(s: string)
    requires EmailPattern(s)
    ensures IsValidEmail(s)
  {
    var a, b :| 0 < a && a + 1 < b && b + 1 < |s| && s[a] == '@' && s[b] == '.'
      && AllPlain(s[..a]) && AllPlain(s[a + 1..b]) && AllPlain(s[b + 1..]);
    EmailSplitAccepted(s, a, b);
  }

  lemma EmailSplitAccepted(s: string, a: nat, b: nat)
    requires 0 < a && a + 1 < b && b + 1 < |s| && s[a] == '@' && s[b] == '.'
    requires AllPlain(s[..a]) && AllPlain(s[a + 1..b]) && AllPlain(s[b + 1..])
    ensures IsValidEmail(s)
  {
    NoAtInPlain(s[..a]);
    FirstOccurrence(s, '@', a);
    var d := s[a + 1..];
    assert d == s[a + 1..b] + [s[b]] + s[b + 1..];
    AllPlainJoin(s[a + 1..b], s[b], s[b + 1..]);
    PlainRunIffAllPlain(s[..a]);
    PlainRunIffAllPlain(d);
    assert d[1..|d| - 1][b - a - 2] == '.';
    assert IsValidDomain(d);
  }

  lemma NoAtInPlain(x: string)
    requires AllPlain(x)
    ensures '@' !in x
  {
  }

  lemma FirstOccurrence(s: string, c: char, a: nat)
    requires a < |s| && s[a] == c && c !in s[..a]
    ensures IndexOf(s, c) == Some(a)
  {
    assert s[a] in s[..a + 1];
  }

  lemma AllPlainJoin(x: string, c: char, y: string)
    requires AllPlain(x) && Plain(c) && AllPlain(y)
    ensures AllPlain(x + [c] + y)
  {
    var z := x + [c] + y;
    forall i | 0 <= i < |z|
      ensures Plain(z[i])
    {
      if i < |x| {
        assert z[i] == x[i];
      } else if i > |x| {
        assert z[i] == y[i - |x| - 1];
      }
    }
  }

  /** A well-formed address is accepted. */
  lemma EmailAccepts()
    ensures IsValidEmail("a@b.co")
  {
    var s := "a@b.co";
    assert s[..1] == "a" && s[2..3] == "b" && s[4..] == "co";
    EmailSplitAccepted(s, 1, 3);
  }

  /** A domain without a dot is rejected. */
  lemma EmailNeedsDot()
    ensures !IsValidEmail("a@b")
  {
    assert IndexOf("a@b", '@') == Some(1);
    assert "a@b"[2..] == "b";
  }

  /** White space anywhere in the address is rejected. */
  lemma EmailRejectsSpace()
    ensures !IsValidEmail("a b@c.com")
  {
    assert IndexOf("a b@c.com", '@') == Some(3);
    assert "a b@c.com"[..3] == "a b" && "a b"[1..] == " b";
  }

  /* ---------------------------------------------------------------- phone */

  /** The characters `value.replace(/[\s\-\(\)]/g, '')` deletes. */
  predicate IsPhoneFiller(c: char) {
    IsSpace(c) || c == '-' || c == '(' || c == ')'
  }

  /** The phone number with every filler character removed, the rest kept in order. */
  function StripPhone(s: string): (r: string)
    ensures |r| <= |s|
    ensures forall i :: 0 <= i < |r| ==> !IsPhoneFiller(r[i])
    ensures forall c :: c in r ==> c in s
  {
    if |s| == 0 then []
    else (if IsPhoneFiller(s[0]) then [] else [s[0]]) + StripPhone(s[1..])
  }

  /** Stripping works piece by piece: the result of a concatenation is the concatenation
      of the results, so every non-filler character survives in its place. */
  lemma {:induction false} StripPhoneConcat(a: string, b: string)
    ensures StripPhone(a + b) == StripPhone(a) + StripPhone(b)
  {
    if |a| == 0 {
      assert a + b == b;
    } else {
      assert (a + b)[1..] == a[1..] + b;
      StripPhoneConcat(a[1..], b);
    }
  }

  /** A string without filler is left as it is; so stripping is idempotent. */
  lemma {:induction false} StripPhoneClean(s: string)
    requires forall i :: 0 <= i < |s| ==> !IsPhoneFiller(s[i])
    ensures StripPhone(s) == s
  {
    if |s| > 0 {
      StripPhoneClean(s[1..]);
    }
  }

  lemma StripPhoneIdempotent(s: string)
    ensures StripPhone(StripPhone(s)) == StripPhone(s)
  {
    StripPhoneClean(StripPhone(s));
  }

  /** A national number: a digit 1-9 then at most 15 further digits. */
  ghost predicate NationalNumber(q: string) {
    1 <= |q| <= 16 && '1' <= q[0] <= '9' && AllDigits(q)
  }

  /** The language of `/^[\+]?[1-9][\d]{0,15}$/`. */
  ghost predicate PhonePattern(p: string) {
    || NationalNumber(p)
    || (|p| > 0 && p[0] == '+' && NationalNumber(p[1..]))
  }

  /** At most `budget` digits, counted down one character at a time. */
  predicate DigitsUpTo(q: string, budget: nat) {
    |q| == 0 || (budget > 0 && IsDigit(q[0]) && DigitsUpTo(q[1..], budget - 1))
  }

  /** The phone check as a scan: an optional '+', a digit 1-9, then up to 15 digits. */
  predicate IsValidPhone(p: string) {
    var q := if |p| > 0 && p[0] == '+' then p[1..] else p;
    |q| > 0 && '1' <= q[0] <= '9' && DigitsUpTo(q[1..], 15)
  }

  lemma {:induction false} DigitsUpToIff(q: string, budget: nat)
    ensures DigitsUpTo(q, budget) <==> |q| <= budget && AllDigits(q)
  {
    if |q| > 0 && budget > 0 {
      DigitsUpToIff(q[1..], budget - 1);
      if AllDigits(q) {
        assert AllDigits(q[1..]);
      }
      if AllDigits(q[1..]) && IsDigit(q[0]) {
        assert forall i :: 1 <= i < |q| ==> q[i] == q[1..][i - 1];
      }
    }
  }

  /** The scanner accepts exactly the regex's language. */
  lemma PhoneScanMatchesPattern(p: string)
    ensures IsValidPhone(p) <==> PhonePattern(p)
  {
    var q := if |p| > 0 && p[0] == '+' then p[1..] else p;
    if |q| > 0 {
      DigitsUpToIff(q[1..], 15);
      if AllDigits(q[1..]) && IsDigit(q[0]) {
        assert forall i :: 1 <= i < |q| ==> q[i] == q[1..][i - 1];
      }
    }
  }

  /** An accepted number has at most 16 digits and never starts with 0. */
  lemma PhoneShape(p: string)
    requires IsValidPhone(p)
    ensures |p| <= 17
    ensures p[0] != '0'
    ensures p[0] == '+' ==> |p| >= 2 && p[1] != '0'
    ensures p[0] != '+' ==> |p| <= 16
  {
    var q := if |p| > 0 && p[0] == '+' then p[1..] else p;
    DigitsUpToIff(q[1..], 15);
  }

  /** An international number with a '+' is accepted. */
  lemma PhoneAccepts()
    ensures IsValidPhone("+15551234567")
  {
    var d := "5551234567";
    assert AllDigits(d) by {
      assert d[0] == '5' && d[1] == '5' && d[2] == '5' && d[3] == '1' && d[4] == '2';
      assert d[5] == '3' && d[6] == '4' && d[7] == '5' && d[8] == '6' && d[9] == '7';
    }
    DigitsUpToIff(d, 15);
    assert "+15551234567"[1..][1..] == d;
  }

  /** A leading zero is rejected. */
  lemma PhoneRejectsLeadingZero()
    ensures !IsValidPhone("0015551234567")
  {
  }

  /** Seventeen digits are one too many. */
  lemma PhoneRejectsSeventeenDigits()
    ensures !IsValidPhone("12345678901234567")
  {
    assert "12345678901234567"[1..] == "2345678901234567";
    DigitsUpToIff("2345678901234567", 15);
  }

  /* ---------------------------------------------------------------- files */

  /** The `pdf1` rule: nothing selected passes; otherwise the first file's type is checked
      before its size, and the size fails only above 10 MiB. */
  function PdfCheck(files: seq<FileInfo>): (v: Verdict)
    ensures files == [] ==> v.Pass?
    ensures v.Fail? ==> v.errorId == ErrorId("pdf1")
    ensures files != [] && files[0].mime != PdfMime ==> v.Fail? && v.message == PdfTypeMessage
    ensures files != [] && files[0].mime == PdfMime ==> (v.Pass? <==> files[0].size <= MaxPdfBytes)
    ensures v.Fail? && v.message == PdfSizeMessage ==> files[0].mime == PdfMime && files[0].size > MaxPdfBytes
  {
    if |files| == 0 then Pass
    else if files[0].mime != PdfMime then Fail(ErrorId("pdf1"), PdfTypeMessage)
    else if files[0].size > MaxPdfBytes then Fail(ErrorId("pdf1"), PdfSizeMessage)
    else Pass
  }

  /* ---------------------------------------------------------------- fields */

  /** The names that have a rule of their own; every other field only has the required
      check. Team member fields (`teamMember2Email`, ...) are not among them. */
  const RuleNames: set<string> := {"firstName", "lastName", "email", "phone", "pdf1"}

  /** Only the required check reports the required message. */
  lemma MessagesDiffer()
    ensures RequiredMessage !in {NameMessage, EmailMessage, PhoneMessage, PdfTypeMessage, PdfSizeMessage}
  {
    assert RequiredMessage[0] == 'T';
    assert NameMessage[0] == 'N' && EmailMessage[0] == 'P' && PhoneMessage[0] == 'P';
    assert PdfTypeMessage[0] == 'P' && PdfSizeMessage[0] == 'F';
  }

  /** A required field whose trimmed value is empty. */
  predicate MissingRequired(field: Input) {
    field.required && Blank(ValueOf(field.control))
  }

  /** `validateField`: the required check short-circuits; then the rule for the field's
      name applies to the trimmed value. The name rule fails only below one character,
      which a non-empty value never is. */
  function ValidateField(field: Input): (v: Verdict)
    ensures MissingRequired(field) ==> v == Fail(ErrorId(field.name), RequiredMessage)
    ensures v.Fail? ==> v.errorId == ErrorId(field.name)
    ensures v.Fail? && v.message == RequiredMessage ==> MissingRequired(field)
    ensures field.name !in RuleNames ==> (v.Pass? <==> !MissingRequired(field))
  {
    var value := Trim(ValueOf(field.control));
    assert value == [] <==> Blank(ValueOf(field.control));
    if field.required && value == [] then Fail(ErrorId(field.name), RequiredMessage)
    else
      RuleVerdictFacts(field.name, value, Files(field.control));
      RuleVerdict(field.name, value, Files(field.control))
  }

  /** The rule for a field's name, on its trimmed value and its files. */
  function RuleVerdict(name: string, value: string, files: seq<FileInfo>): Verdict {
    if name == "firstName" || name == "lastName" then
      if |value| > 0 && |value| < 1 then Fail(ErrorId(name), NameMessage) else Pass
    else if name == "email" then
      if |value| > 0 && !IsValidEmail(value) then Fail(ErrorId("email"), EmailMessage) else Pass
    else if name == "phone" then
      if |value| > 0 && !IsValidPhone(StripPhone(value)) then Fail(ErrorId("phone"), PhoneMessage) else Pass
    else if name == "pdf1" then PdfCheck(files)
    else Pass
  }

  /** A rule fails under the field's own error id, never with the required message, and
      only for the names that have a rule. */
  lemma RuleVerdictFacts(name: string, value: string, files: seq<FileInfo>)
    ensures var v := RuleVerdict(name, value, files);
      && (v.Fail? ==> v.errorId == ErrorId(name) && v.message != RequiredMessage)
      && (name !in RuleNames ==> v.Pass?)
  {
    MessagesDiffer();
  }

  /** The first and last name rule can never fail: a name field fails only when it is
      required and blank. */
  lemma NameRuleNeverFails(field: Input)
    requires field.name == "firstName" || field.name == "lastName"
    ensures ValidateField(field).Pass? <==> !MissingRequired(field)
  {
  }

  /** A present email is accepted exactly when its trimmed value is in the regex's language;
      an absent one is never rejected by this rule. */
  lemma EmailRule(field: Input)
    requires field.name == "email" && !MissingRequired(field)
    ensures ValidateField(field).Pass? <==>
      (Blank(ValueOf(field.control)) || EmailPattern(Trim(ValueOf(field.control))))
    ensures ValidateField(field).Fail? ==> ValidateField(field).message == EmailMessage
  {
    var value := Trim(ValueOf(field.control));
    assert field.name != "firstName" && field.name != "lastName";
    assert ValidateField(field) ==
      if |value| > 0 && !IsValidEmail(value) then Fail(ErrorId("email"), EmailMessage) else Pass;
    EmailScanMatchesPattern(value);
  }

  /** A present phone number is accepted exactly when, trimmed and stripped of white space,
      '-', '(' and ')', it is in the regex's language. */
  lemma PhoneRule(field: Input)
    requires field.name == "phone" && !MissingRequired(field)
    ensures ValidateField(field).Pass? <==>
      (Blank(ValueOf(field.control)) || PhonePattern(StripPhone(Trim(ValueOf(field.control)))))
    ensures ValidateField(field).Fail? ==> ValidateField(field).message == PhoneMessage
  {
    var value := Trim(ValueOf(field.control));
    assert field.name != "firstName" && field.name != "lastName" && field.name != "email";
    assert ValidateField(field) ==
      if |value| > 0 && !IsValidPhone(StripPhone(value)) then Fail(ErrorId("phone"), PhoneMessage) else Pass;
    PhoneScanMatchesPattern(StripPhone(value));
  }

  /** Only `pdf1` is checked as a file, and its verdict is the PDF rule on its files. */
  lemma PdfRule(field: Input)
    requires !MissingRequired(field)
    ensures field.name == "pdf1" ==> ValidateField(field) == PdfCheck(Files(field.control))
    ensures field.name in {"pdf2", "pdf3"} ==> ValidateField(field).Pass?
  {
  }

  /** An empty field that is not required passes whatever its name. */
  lemma OptionalEmptyPasses(field: Input)
    requires !field.required && Blank(ValueOf(field.control))
    ensures ValidateField(field).Pass?
  {
  }
}

=== FILE: wizard.dfy ===
/** Step navigation: `nextStep` is gated on `validateCurrentStep`, `prevStep` is not; both
    save the step's data, and the step moves within 1..5. The progress bar and the step
    indicators are pure functions of the current step. */
module Wizard {
  import opened Wrappers
  import opened Chars
  import opened Dom
  import opened Persistence
  import opened StepValidation

  predicate InRange(s: WizardState) {
    1 <= s.currentStep <= TotalSteps
  }

  /** `nextStep`: nothing happens unless the current step validates; then the step is
      saved and, below the last step, the wizard moves one step on. */
  function NextStep(s: WizardState, page: Page): (r: WizardState)
    requires page.WellFormed() && InRange(s)
    ensures InRange(r)
    ensures !ValidateCurrentStep(page, s.currentStep) ==> r == s
    ensures ValidateCurrentStep(page, s.currentStep) ==>
      && r.formData == SaveCurrentStepData(s, page).formData
      && r.storage == SaveCurrentStepData(s, page).storage
      && r.currentStep == (if s.currentStep < TotalSteps then s.currentStep + 1 else TotalSteps)
  {
    if ValidateCurrentStep(page, s.currentStep) then
      var saved := SaveCurrentStepData(s, page);
      if saved.currentStep < TotalSteps then saved.(currentStep := saved.currentStep + 1) else saved
    else s
  }

  /** `prevStep`: the step is always saved, without validation; above the first step the
      wizard moves one step back. */
  function PrevStep(s: WizardState, page: Page): (r: WizardState)
    requires page.WellFormed() && InRange(s)
    ensures InRange(r)
    ensures r.formData == SaveCurrentStepData(s, page).formData
    ensures r.storage == SaveCurrentStepData(s, page).storage
    ensures r.currentStep == if s.currentStep > 1 then s.currentStep - 1 else 1
  {
    var saved := SaveCurrentStepData(s, page);
    if saved.currentStep > 1 then saved.(currentStep := saved.currentStep - 1) else saved
  }

  /** Moving forward never skips a step and never moves back. */
  lemma NextMovesAtMostOne(s: WizardState, page: Page)
    requires page.WellFormed() && InRange(s)
    ensures s.currentStep <= NextStep(s, page).currentStep <= s.currentStep + 1
    ensures NextStep(s, page).currentStep == s.currentStep + 1 <==>
      ValidateCurrentStep(page, s.currentStep) && s.currentStep < TotalSteps
  {
  }

  /** The saved step trails a forward move: the step number is written before it is
      incremented, so a reload resumes on the step just completed, not the one shown. */
  lemma SavedStepTrailsNext(s: WizardState, page: Page)
    requires page.WellFormed() && InRange(s)
    requires ValidateCurrentStep(page, s.currentStep) && s.currentStep < TotalSteps
    ensures SavedStep(NextStep(s, page).storage) == Some(s.currentStep)
    ensures NextStep(s, page).currentStep == s.currentStep + 1
  {
    var saved := SaveCurrentStepData(s, page);
    assert NextStep(s, page).storage == saved.storage;
    ParseNatToString(s.currentStep);
    assert SavedStep(saved.storage) == Some(s.currentStep);
  }

  /** A back step followed by a successful forward step lands where it started. */
  lemma BackThenForward(s: WizardState, page: Page)
    requires page.WellFormed() && InRange(s) && s.currentStep > 1
    requires ValidateCurrentStep(page, s.currentStep - 1)
    ensures NextStep(PrevStep(s, page), page).currentStep == s.currentStep
  {
  }

  /* ---------------------------------------------------------------- progress */

  /** `updateProgress`: the bar's width in percent, `currentStep / totalSteps * 100`, which
      is exact for every step. */
  function ProgressPercent(step: int): (p: int)
    requires 1 <= step <= TotalSteps
    ensures p * TotalSteps == step * 100
    ensures 100 / TotalSteps <= p <= 100
  {
    step * 100 / TotalSteps
  }

  /* ---------------------------------------------------------------- indicators */

  /** The three exclusive states of a step indicator. */
  datatype Status = Pending | Active | Completed

  /** What an indicator shows: its number, or a check mark. */
  datatype Content = Numeral(n: int) | CheckMark

  datatype Badge = Badge(status: Status, content: Content)

  /** Indicator `k` is active on the current step, completed before it, pending after. */
  function IndicatorStatus(k: int, current: int): Status {
    if k == current then Active else if k < current then Completed else Pending
  }

  /** One indicator repainted: a completed one shows a check, a pending one its number, and
      the active one keeps whatever it showed. */
  function Repaint(b: Badge, k: int, current: int): Badge {
    match IndicatorStatus(k, current)
    case Active => Badge(Active, b.content)
    case Completed => Badge(Completed, CheckMark)
    case Pending => Badge(Pending, Numeral(k))
  }

  /** `updateStepIndicators` over the indicators in document order: only the indicator of
      the current step is active, the ones before it are completed and show a check mark,
      the ones after it are pending and show their number, and the active one keeps what it
      showed. */
  function UpdateStepIndicators(badges: seq<Badge>, current: int): (r: seq<Badge>)
    ensures |r| == |badges|
    ensures forall i :: 0 <= i < |r| ==> (r[i].status == Active <==> i + 1 == current)
    ensures forall i :: 0 <= i < |r| ==> (r[i].status == Completed <==> i + 1 < current)
    ensures forall i :: 0 <= i < |r| && r[i].status == Completed ==> r[i].content == CheckMark
    ensures forall i :: 0 <= i < |r| && r[i].status == Pending ==> r[i].content == Numeral(i + 1)
    ensures forall i :: 0 <= i < |r| && r[i].status == Active ==> r[i].content == badges[i].content
  {
    seq(|badges|, i requires 0 <= i < |badges| => Repaint(badges[i], i + 1, current))
  }

  /** The statuses of indicators 1..n: indicator `i + 1` is active exactly on the current
      step, completed exactly before it and pending exactly after it. */
  function Statuses(n: nat, current: int): (r: seq<Status>)
    ensures |r| == n
    ensures forall i :: 0 <= i < n ==> (r[i] == Active <==> i + 1 == current)
    ensures forall i :: 0 <= i < n ==> (r[i] == Completed <==> i + 1 < current)
    ensures forall i :: 0 <= i < n ==> (r[i] == Pending <==> i + 1 > current)
  {
    if n == 0 then [] else Statuses(n - 1, current) + [IndicatorStatus(n, current)]
  }

  function Count(ss: seq<Status>, st: Status): nat {
    if |ss| == 0 then 0 else Count(ss[..|ss| - 1], st) + (if ss[|ss| - 1] == st then 1 else 0)
  }

  function Min(a: int, b: int): int {
    if a < b then a else b
  }

  /** Of indicators 1..n, one is active when the current step is among them, the steps
      before it are completed and the rest are pending. */
  lemma {:induction false} StatusCounts(n: nat, current: int)
    requires current >= 1
    ensures Count(Statuses(n, current), Active) == if current <= n then 1 else 0
    ensures Count(Statuses(n, current), Completed) == Min(n, current - 1)
    ensures Count(Statuses(n, current), Pending) == if n > current then n - current else 0
  {
    if n > 0 {
      var ss := Statuses(n, current);
      assert ss[..n - 1] == Statuses(n - 1, current);
      StatusCounts(n - 1, current);
    }
  }

  /** On every step the five indicators show exactly one active step, `currentStep - 1`
      completed ones and the rest pending. */
  lemma IndicatorsPartition(badges: seq<Badge>, current: int)
    requires |badges| == TotalSteps && 1 <= current <= TotalSteps
    ensures var r := UpdateStepIndicators(badges, current);
      Statuses(|r|, current) == seq(|r|, i requires 0 <= i < |r| => r[i].status)
    ensures Count(Statuses(TotalSteps, current), Active) == 1
    ensures Count(Statuses(TotalSteps, current), Completed) == current - 1
    ensures Count(Statuses(TotalSteps, current), Pending) == TotalSteps - current
  {
    StatusCounts(TotalSteps, current);
  }

  /** Moving back does not restore the number: the indicator that becomes active again
      keeps the check mark it got when it was completed. */
  lemma BackKeepsCheckMark(badges: seq<Badge>, k: int)
    requires 1 <= k && k + 1 <= |badges|
    ensures UpdateStepIndicators(UpdateStepIndicators(badges, k + 1), k)[k - 1] == Badge(Active, CheckMark)
  {
  }
}

=== FILE: wrappers.dfy ===
/** Optional values: the model's stand-in for JavaScript's `null`, `undefined` and `NaN`. */
module Wrappers {
  datatype Option<+T> = None | Some(value: T)
}
